=== FILE: README.md ===
# Attendance checker: a Dafny model of the page handlers

The modelled system is a classroom attendance web application. Teachers create classes and open attendance sessions that display a QR code. Students join a class with an invite code, then scan the code to be marked present. Teachers export a per-student attendance spreadsheet.

All logic sits in page components that talk straight to a hosted Postgres backend. This model takes the pages that make decisions and restates each handler as a pure Dafny function. The backend's tables, the signed-in user and any failure the backend reports all become parameters.

Modules:

- `Base`: the shared types.
  - `Option`: a `null` answer is `None`.
  - `Result`.
  - The backend error record `DbError`, including the unique-violation code `23505`.
- `Text`: the string operations the pages rely on.
  - `includes` and `split("token=")`.
  - The `\D` filter.
  - `toUpperCase` and `trim`.
  - Decimal rendering for `toFixed(0)`.
  - The `a || "fallback"` idiom.
- `Routing`: profiles, the two roles and the "teacher goes to the teacher dashboard, everyone else to the student one" rule. The sign-in, verification and teacher-dashboard pages use this rule. The student dashboard uses a different one: anything but a "student" profile, including a missing profile, goes to the teacher dashboard.
- `Report`: the teacher's spreadsheet export (`handleExportReport`). It covers:
  - the no-data guard;
  - the log query;
  - sorting students by name with an abstract `localeCompare`;
  - per-session Present/Absent cells keyed by session date;
  - the totals and the rounded percentage;
  - the failure path the `catch` block reports.
- `TeacherDashboard`: the dashboard guard, the "Sessions" column and `handleDeleteClass`.
- `Scan`: `onScanSuccess`.
  - Re-entry guard and token extraction.
  - Session lookup with `.single()` and the insert of a "present" log.
  - Mapping of a duplicate key to "Already scanned!".
  - Page state after success or failure.
- `Enroll`: the invite-code field's normalisation and `handleJoin`. The lookup uses the trimmed code; the handler then checks for duplicates and inserts.
- `StudentDashboard`: the server component's guard, the attendance total and the "My Classes" table with its fallbacks.
- `Auth`: the one-time-code field, `handleVerify` and `handleLogin`.
- `Repair`: the account-repair page. It recreates a missing profile as a recovered teacher, driven by an idle/loading/success/error status machine.

Three behaviours of the code worth knowing:

- **Expired codes are accepted.** The teacher's QR page gives each session an expiry time one hour ahead (app/dashboard/teacher/classes/[id]/qr/page.tsx:55-56 and :63). It reuses only unexpired sessions (same file, line 35). The scan handler never reads that time (app/dashboard/student/scan/page.tsx:49-55). `Scan.LookupSession` filters on the token alone.
- **A missing profile goes to the teacher dashboard.** The student dashboard sends a missing profile there, even though the page's comment speaks of the login page (`StudentDashboard.Guard`). The teacher dashboard sends the same user back to the student dashboard. So a signed-in user with no profile, or with a role other than "teacher" or "student", is redirected between the two dashboards and sees neither (`StudentDashboard.DashboardsRedirectEachOther`).
- **The code's value is never checked.** The verification page checks only the length of the one-time code, never its value (`Auth.Verify`).

## Model

| member | source | states |
|---|---|---|
| Routing.ProfileOf | app/auth/login/page.tsx:42-46 | The profile lookup yields a profile exactly when the id has a row, and then that row. |
| Routing.HomeFor | app/auth/login/page.tsx:48-52 | Only a profile whose role is exactly "teacher" reaches the teacher dashboard. Any other role, and a missing profile, reach the student dashboard. Neither outcome is the login page. |
| Routing.Path | app/auth/verify/page.tsx:39-49 | A route's path lies under "/dashboard/" exactly when it is one of the two dashboards, so the login page does not. |
| Routing.PathInjective | app/auth/verify/page.tsx:39-49 | Two routes have the same path exactly when they are the same route. |
| Report.FindLog | app/dashboard/teacher/page.tsx:126-128 | `find` answers with a log that matches both the session id and the student id. It answers nothing exactly when no log matches. |
| Report.MarkFor | app/dashboard/teacher/page.tsx:126-129 | A cell is "Present" exactly when some log matches both the session id and the student id. |
| Report.PresentCount | app/dashboard/teacher/page.tsx:123-130 | The count never exceeds the number of sessions. It equals that number exactly when every session was attended, and is zero exactly when none was. |
| Report.PresentCountIsAttendedSessions | app/dashboard/teacher/page.tsx:123-130 | The count is the size of the set of attended session positions. |
| Report.Marks | app/dashboard/teacher/page.tsx:125-133 | The row's session columns are exactly the session dates. |
| Report.MarkOfLastSessionOnDate | app/dashboard/teacher/page.tsx:132 | When two sessions share a date, the column holds the mark of the later session. |
| Report.SameDateSessionsShareOneCell | app/dashboard/teacher/page.tsx:125-133 | Example: two sessions on one date, only the first attended. The single column shows "Absent" while the total still counts one. |
| Report.RoundedPercent | app/dashboard/teacher/page.tsx:137-138 | The result is present/total*100 rounded half up (bounded from both sides). It is at most 100 when present <= total, 100 at full attendance and 0 at none. |
| Report.PercentageCell | app/dashboard/teacher/page.tsx:137-139 | The cell is the decimal rendering of the rounded percentage followed by "%". |
| Text.NatToDecimal | app/dashboard/teacher/page.tsx:137-139 | The digits printed for a whole number: at least one ASCII digit, no leading zero except for 0 itself, and reading the digits back gives the number. |
| Report.PercentageCellBounds | app/dashboard/teacher/page.tsx:137-139 | Every cell is "k%" for some k <= 100. The cell is "0%" with no attendance and "100%" with full attendance. |
| Report.RowFor | app/dashboard/teacher/page.tsx:117-142 | A row carries the student's name and email, the total of sessions, a present total no larger than it, one column per session date, and the percentage of those totals. |
| Report.InsertByName | app/dashboard/teacher/page.tsx:113-115 | Inserting into a sorted list keeps it sorted and adds exactly the one student. |
| Report.SortByName | app/dashboard/teacher/page.tsx:113-115 | The result is a permutation of the students, ordered by the name comparator. |
| Report.SortByNameNames | app/dashboard/teacher/page.tsx:113-115 | Sorting keeps the multiset of names. |
| Report.RowsFor | app/dashboard/teacher/page.tsx:117 | The i-th row is built from the i-th sorted student. |
| Report.InsertByNameRows | app/dashboard/teacher/page.tsx:113-117 | Inserting a student into a sorted list adds exactly that student's row to the rows. |
| Report.SortByNameRows | app/dashboard/teacher/page.tsx:113-117 | The rows of the sorted students are a permutation of the rows of the unsorted students. |
| Report.RowsOfStudents | app/dashboard/teacher/page.tsx:113-117 | Every row in a permutation of the students' rows is the row of one of those students. |
| Report.ReportRows | app/dashboard/teacher/page.tsx:113-142 | The exported rows are a permutation of the rows of the enrolled students, one row per student and each student's own row. They are sorted by name, and their names are the students' names. |
| Report.RowNamesOfRowsFor | app/dashboard/teacher/page.tsx:117-121 | The rows' names are the students' names in order. |
| Report.SessionIds | app/dashboard/teacher/page.tsx:111 | The log query asks for exactly the ids of the class's sessions, in order. |
| Report.ExportReport | app/dashboard/teacher/page.tsx:86-163 | "No data found to export." exactly when the enrollments or sessions are missing or there are no sessions. "Failed to generate report" exactly when, otherwise, an enrollment has no student. A download happens in exactly the remaining case: both answers present, at least one session, and every enrollment with its student. It queries the logs of exactly the class's sessions. Its rows are a permutation of the rows built for each enrolled student, so every student gets their own row. The rows are sorted by name and carry totals over all sessions. |
| Report.NoDataIgnoresLogs | app/dashboard/teacher/page.tsx:102-107 | The no-data abort does not depend on the log table. |
| TeacherDashboard.Guard | app/dashboard/teacher/page.tsx:27-37 | No user is sent to login. A user stays exactly when the profile's role is "teacher"; everyone else goes to the student dashboard. |
| TeacherDashboard.SessionsCell | app/dashboard/teacher/page.tsx:233 | The column shows the first aggregate's count, and 0 when the relation, its first row or its count is missing. |
| TeacherDashboard.WithoutClass | app/dashboard/teacher/page.tsx:74 | An entry survives the filter exactly when it was present and its id differs from the deleted one. |
| TeacherDashboard.WithoutClassLength | app/dashboard/teacher/page.tsx:74 | The filter removes exactly as many entries as carry the id. |
| TeacherDashboard.WithoutClassAppend | app/dashboard/teacher/page.tsx:74 | The filter distributes over concatenation, so survivors keep their order. |
| TeacherDashboard.WithoutAbsentClass | app/dashboard/teacher/page.tsx:74 | Filtering an id no entry has changes nothing. |
| TeacherDashboard.DeleteClass | app/dashboard/teacher/page.tsx:59-83 | Without confirmation nothing changes and no toast is shown. A backend error keeps the list and shows "Failed to delete class". Success leaves exactly the list filtered by the id, in order and with multiplicity. WithoutClassLength and WithoutClassAppend apply to that list. It shows "Class deleted successfully". |
| Text.Includes | app/dashboard/student/scan/page.tsx:35 | `includes` holds exactly when the pattern occurs somewhere in the text. |
| Scan.ExtractToken | app/dashboard/student/scan/page.tsx:34-37 | The handler tests the text with `includes`. Text without "token=" is used whole as the token. |
| Scan.ExtractTokenAfterFirstMarker | app/dashboard/student/scan/page.tsx:35-36 | With a first "token=" at i, the token starts right after it and ends at the next "token=" or at the end of the text. |
| Scan.ExtractTokenRoundTrip | app/dashboard/student/scan/page.tsx:35-36 | For a prefix and a token without "token=", extraction from prefix + "token=" + token + suffix returns the token, when the suffix is empty or starts a new "token=". |
| Scan.ScanOfIssuedUrl | app/dashboard/student/scan/page.tsx:34-37 | The URL the teacher's QR page encodes (`<origin>/dashboard/student/scan?token=<token>`), with an origin free of '=' and a base-36 token, scans back to exactly that token. |
| Scan.NoEqualsNoMarker | app/dashboard/student/scan/page.tsx:35 | Text without '=' contains no "token=". This covers the base-36 tokens the QR page generates. |
| Scan.LookupSession | app/dashboard/student/scan/page.tsx:49-55 | A session id is found exactly when one session carries the token, and it is that session's id. Expiry is not consulted. |
| Scan.LookupFindsUnique | app/dashboard/student/scan/page.tsx:49-55 | When exactly one session carries the token, `.single()` answers with that session's id. |
| Scan.PairCountAppend | app/dashboard/student/scan/page.tsx:58-62 | Appending a log raises its pair's count by one and leaves other pairs unchanged. |
| Scan.InsertLog | app/dashboard/student/scan/page.tsx:58-62 | An injected fault is returned unchanged. A second row for the same (session, student) pair fails with code 23505. The insert succeeds exactly without a fault and for a new pair, and then appends exactly the new row. |
| Scan.InsertErrorMessage | app/dashboard/student/scan/page.tsx:64-67 | Code 23505 is shown as "Already scanned!". Any other error shows the backend's own message. |
| Scan.OnScan | app/dashboard/student/scan/page.tsx:30-77 | A scan while processing is ignored. The handler answers "Please log in first." with no user and "Invalid QR Code" when the lookup fails. Every rejection re-enables the scanner and leaves the logs alone. Marked happens exactly when the user, the lookup and the insert succeed and the pair was not logged before; it appends the one "present" log and keeps processing set. A failed insert shows the message InsertErrorMessage gives for the insert's error: "Already scanned!" for 23505, and otherwise the backend's message. |
| Scan.ScanTwice | app/dashboard/student/scan/page.tsx:31-67 | On the same page a second decode is ignored, because processing stays set after a success. A later scan of the same code from a freshly opened scan page is refused as "Already scanned!" and adds nothing. The first scan leaves exactly one log for the pair. |
| Text.ToUpper | app/dashboard/student/enroll/page.tsx:88 | Upper-casing keeps the length and leaves no lower-case ASCII letter. Each character is either unchanged or its upper-case form. |
| Enroll.OnCodeChange | app/dashboard/student/enroll/page.tsx:88-91 | The field holds at most six characters: the first six typed, upper-cased. |
| Enroll.OnCodeChangeIdempotent | app/dashboard/student/enroll/page.tsx:88-91 | Normalising an already normalised code changes nothing. |
| Enroll.CanSubmitAfterEdit | app/dashboard/student/enroll/page.tsx:88-96 | After any edit the join button is enabled exactly when nothing is loading and at least three characters were typed. An enabled code has three to six characters. |
| Text.Trim | app/dashboard/student/enroll/page.tsx:31 | The result is a contiguous slice of the input with only whitespace cut on each side. Its ends are not whitespace, and it is empty only for all-whitespace input. |
| Text.TrimIdempotent | app/dashboard/student/enroll/page.tsx:31 | Trimming twice equals trimming once. |
| Enroll.WithCode | app/dashboard/student/enroll/page.tsx:28-32 | A class is selected exactly when it carries the code. |
| Enroll.FindClass | app/dashboard/student/enroll/page.tsx:28-36 | A class is found exactly when one class carries the code, and then it is that class. |
| Enroll.FindClassFindsUnique | app/dashboard/student/enroll/page.tsx:28-36 | When exactly one class carries the code, `.single()` answers with that class. |
| Enroll.Join | app/dashboard/student/enroll/page.tsx:19-67 | The handler rejects with "Not logged in" when no user, with the invalid-code message when the trimmed code matches no single class, and with "You are already enrolled in this class!" for an existing pair. An insert fault's message is shown. Joining happens exactly when none of these apply and adds exactly the one enrollment. A rejection changes no enrollment. |
| Enroll.JoinTwice | app/dashboard/student/enroll/page.tsx:39-48 | A second join of the same class is refused as already enrolled and adds nothing. |
| StudentDashboard.Guard | app/dashboard/student/page.tsx:11-17 | No user is redirected to login. The page renders exactly for a profile whose role is "student". Any other signed-in visitor, including one without a profile, goes to the teacher dashboard. |
| StudentDashboard.DashboardsRedirectEachOther | app/dashboard/student/page.tsx:13-17 | A signed-in user with no profile, or with a role that is neither "teacher" nor "student", is sent by the teacher dashboard to the student one (app/dashboard/teacher/page.tsx:33-37) and by the student dashboard back to the teacher one, so neither page renders for them. |
| Text.OrElse | app/dashboard/student/page.tsx:43 | `a \|\| b` on a possibly missing string yields `a` when it is present and non-empty, else `b`. |
| StudentDashboard.Greeting | app/dashboard/student/page.tsx:43 | The greeting is the full name when it is present and non-empty, and "Student" otherwise. |
| StudentDashboard.PresentCount | app/dashboard/student/page.tsx:34-35 | The total is the number of logs whose status is exactly "present", and 0 when the logs are missing. |
| StudentDashboard.CountPresentAll | app/dashboard/student/page.tsx:35 | The total equals the number of logs exactly when every log is "present". |
| StudentDashboard.ClassName | app/dashboard/student/page.tsx:94 | The class cell is never empty. It shows the joined class's name whenever that name is present and non-empty, and "Unknown Class" otherwise. |
| StudentDashboard.Instructor | app/dashboard/student/page.tsx:98 | The instructor cell is never empty. It shows the teacher's full name whenever it is present and non-empty, and "Unknown Teacher" otherwise. |
| StudentDashboard.ClassTable | app/dashboard/student/page.tsx:91-108 | The table holds one line per enrollment with its fallbacks. The empty-state line appears exactly when the enrollments are missing or empty. |
| Text.KeepDigits | app/auth/verify/page.tsx:79 | The result is all digits and never longer than the input. |
| Text.KeepDigitsContents | app/auth/verify/page.tsx:79 | Every digit of the input is kept, as often as it occurs, and every non-digit is dropped. |
| Text.KeepDigitsAppend | app/auth/verify/page.tsx:79 | The filter distributes over concatenation, so the digits keep their order. |
| Text.KeepDigitsOfDigits | app/auth/verify/page.tsx:79 | A string of digits passes the filter unchanged. |
| Auth.OnOtpChange | app/auth/verify/page.tsx:74-79 | The field holds exactly the digits of the first six characters typed, in order and with multiplicity; every other character is dropped. A digit-only entry keeps its first six characters unchanged. |
| Auth.OnOtpChangeIdempotent | app/auth/verify/page.tsx:74-79 | Sanitising twice equals sanitising once. |
| Auth.Verify | app/auth/verify/page.tsx:21-51 | A code whose length is not six shows "Please enter a valid 6-digit code." and stops loading. Otherwise the page navigates: to login without a user, to the teacher dashboard exactly for a "teacher" profile, and to the student dashboard for everyone else. |
| Auth.Login | app/auth/login/page.tsx:23-57 | A sign-in error is shown and stops loading. Otherwise the old error is cleared and the page navigates by role; a response without a user goes to the student dashboard. |
| Auth.LoginForgetsPreviousError | app/auth/login/page.tsx:25-26 | What the page showed before the attempt has no effect on the result. |
| Repair.RecoveredProfile | app/fix/page.tsx:30-35 | The recreated row keeps the user's id and email, with role "teacher" and name "Teacher (Recovered)". |
| Repair.InsertProfile | app/fix/page.tsx:30-37 | The insert succeeds exactly without a fault and for a new id, and then adds exactly that row. A fault is returned unchanged. |
| Repair.FixProfile | app/fix/page.tsx:14-45 | The status trace is a legal Idle, Loading, then Success or Error. The cases are: no user gives Error with "You are not logged in."; an existing profile gives Success and changes nothing; an insert fault gives Error with its message. The profile table changes exactly when a new recovered teacher profile is inserted. |
| Repair.TryAgain | app/fix/page.tsx:80 | "Try Again" is a legal move from Error back to Idle. |
| Repair.RepairIdempotent | app/fix/page.tsx:21-40 | A second repair finds the profile the first one created. It reports that the profile already exists and changes nothing. |

## Left out

- Backend I/O: every query, insert and delete is replaced by tables passed in as parameters. Authentication is likewise replaced by an optional user id.
  - A backend error on the `.single()` lookups of a session or class gives the same message as "no row", so the model folds it into "no match". Insert and delete failures are injected as an optional `DbError`.
  - Enroll.Join and Repair.FixProfile assume their `maybeSingle` existence checks answer. In the source a failed check yields `null` and the handler goes on to the insert. The model does not produce that path.
- Spreadsheet serialisation is not modelled: `json_to_sheet`, column widths, the workbook, `saveAs` and the file name. The model stops at the row data handed to the writer.
- Toasts other than the messages each handler returns are not modelled, including loading toasts and the "Verifying..." info. Also left out: the router, the 2-second delayed redirect after a scan, the `exportingId` and loading spinners, and React state batching.
- Camera and scanner lifecycle (`Html5QrcodeScanner`, `clear`, `render`) is reduced to one `scanning` flag in `Scan.Page`.
- Report.RoundedPercent: uses exact integer half-up rounding of present/total*100. `toFixed(0)` on the floating-point quotient can differ at exact .5 boundaries that binary floating point does not represent exactly.
- Report.SortByName: `localeCompare` is an abstract total preorder supplied by the caller. Locale collation rules are not modelled, and the stability of `Array.prototype.sort` is not stated. The contract gives order and permutation only.
- Report.ExportReport: rows are records, not spreadsheet objects. A session date equal to "Student Name", "Email", "Total Present", "Total Sessions" or "Attendance %" would overwrite that column in the source; the model keeps the marks apart.
- Report.ExportReport: a student whose `full_name` is `null` makes the comparator throw only when it is the receiver `a` of `a.full_name.localeCompare(b.full_name)`, which depends on the engine's sort. As the argument it compares as the text "null". The model gives students non-null names, and only a missing student counts as a failure.
- Text.ToUpper: upper-cases ASCII letters only. Full Unicode case mapping of `toUpperCase` is not modelled.
- Enroll.OnCodeChange: its six-character bound follows from the ASCII case mapping. In the source, `toUpperCase` can lengthen text ("ß" becomes "SS"), so six typed "ß" leave twelve characters in the field. Also, `maxLength` counts UTF-16 code units, while the model counts Unicode scalar values, so a character outside the Basic Multilingual Plane uses two of the six places in the source.
- Text.KeepDigits: `\D` is modelled as ASCII digits, the class JavaScript uses without the `u` flag.
- Invite-code generation and class creation are not modelled. QR-session issuing, token generation and expiry times are not modelled either, except the URL shape used by `Scan.ScanOfIssuedUrl`.
- Registration, the sign-up-success page, the landing and about pages, and the teacher's per-class report page are not part of this model.
- Concurrency between simultaneous scans or joins is not modelled. Each handler is one atomic step over the tables.
- After a successful navigation the pages leave their loading flag set; the model records that as `loading == true` and does not model the page unmounting.

=== FILE: auth.dfy ===
/** The sign-in page (`handleLogin`) and the second-factor page
  (`handleVerify`): input sanitising of the one-time code and the role-based
  redirect both pages end with.
 */
module Auth {
  import opened Base
  import opened Routing
  import Text

  /** The `maxLength` of the code field and the length `handleVerify` demands. */
  const OtpLength := 6
  const InvalidOtp := "Please enter a valid 6-digit code."

  /** The code field after an edit: the browser keeps at most six characters
    and `onChange` strips every non-digit with `replace(/\D/g, "")`. */
  function OnOtpChange(raw: string): (otp: string)
    ensures |otp| <= OtpLength
    ensures Text.AllDigits(otp)
    ensures Text.AllDigits(raw) ==> otp == (if |raw| <= OtpLength then raw else raw[..OtpLength])
    ensures otp == Text.KeepDigits(if |raw| <= OtpLength then raw else raw[..OtpLength])
    ensures forall c :: (multiset(otp)[c]
      == if Text.IsDigit(c) then multiset(if |raw| <= OtpLength then raw else raw[..OtpLength])[c] else 0)
  {
    var kept := if |raw| <= OtpLength then raw else raw[..OtpLength];
    assert Text.AllDigits(kept) ==> Text.KeepDigits(kept) == kept by {
      if Text.AllDigits(kept) {
        Text.KeepDigitsOfDigits(kept);
      }
    }
    Text.KeepDigitsContents(kept);
    Text.KeepDigits(kept)
  }

  /** Sanitising a sanitised code changes nothing. */
  lemma OnOtpChangeIdempotent(raw: string)
    ensures OnOtpChange(OnOtpChange(raw)) == OnOtpChange(raw)
  {
  }

  /** What the page shows after a submit, and where it navigates, if anywhere. */
  datatype View = View(error: Option<string>, loading: bool)
  datatype Submit = Submit(view: View, navigate: Option<Route>)

  /** `handleVerify`: a code of any length but six is refused before the
    backend is asked anything; otherwise the signed-in user is routed by role
    (and the spinner keeps spinning while the navigation happens). The code's
    value itself is never checked. */
  function Verify(otp: string, user: Option<string>, profiles: map<string, Profile>): (r: Submit)
    ensures |otp| != OtpLength ==> r == Submit(View(Some(InvalidOtp), false), None)
    ensures |otp| == OtpLength ==> r.view == View(None, true) && r.navigate.Some?
    ensures |otp| == OtpLength && user.None? ==> r.navigate == Some(LoginPage)
    ensures r.navigate == Some(TeacherHome) <==>
      |otp| == OtpLength && user.Some? && user.value in profiles && profiles[user.value].role == TeacherRole
    ensures r.navigate == Some(StudentHome) <==>
      |otp| == OtpLength && user.Some? && (user.value !in profiles || profiles[user.value].role != TeacherRole)
  {
    if |otp| != OtpLength then Submit(View(Some(InvalidOtp), false), None)
    else if user.None? then Submit(View(None, true), Some(LoginPage))
    else Submit(View(None, true), Some(HomeFor(ProfileOf(profiles, user.value))))
  }

  /** The answer of `signInWithPassword`: an error, or data whose user may be missing. */
  datatype SignIn = SignInError(message: string) | SignedIn(user: Option<string>)

  /** `handleLogin`, from whatever the page showed before the attempt: the old
    error is cleared first; a sign-in error is shown and stops the spinner;
    otherwise the user is routed by role, and a response without a user falls
    back to the student dashboard. */
  function Login(before: View, signIn: SignIn, profiles: map<string, Profile>): (r: Submit)
    ensures signIn.SignInError? ==> r == Submit(View(Some(signIn.message), false), None)
    ensures signIn.SignedIn? ==> r.view == View(None, true) && r.navigate.Some? && r.navigate != Some(LoginPage)
    ensures r.navigate == Some(TeacherHome) <==>
      signIn.SignedIn? && signIn.user.Some? && signIn.user.value in profiles
      && profiles[signIn.user.value].role == TeacherRole
    ensures signIn == SignedIn(None) ==> r.navigate == Some(StudentHome)
  {
    match signIn
    case SignInError(message) => Submit(View(Some(message), false), None)
    case SignedIn(None) => Submit(View(None, true), Some(StudentHome))
    case SignedIn(Some(id)) => Submit(View(None, true), Some(HomeFor(ProfileOf(profiles, id))))
  }

  /** The view before the attempt never leaks into the result. */
  lemma LoginForgetsPreviousError(a: View, b: View, signIn: SignIn, profiles: map<string, Profile>)
    ensures Login(a, signIn, profiles) == Login(b, signIn, profiles)
  {
  }
}

=== FILE: base.dfy ===
/** Shared result shapes for the attendance application model.

  Every backend call of the application answers either with data or with an
  error object carrying a Postgres error code and a message; the model keeps
  exactly those two pieces of an error.
 */
module Base {

  /** A value that may be missing: a `null` row, an absent user, an optional column. */
  datatype Option<+T> = None | Some(value: T)

  /** An error returned by the backend: its SQLSTATE code and its human-readable message. */
  datatype DbError = DbError(code: string, message: string)

  /** The answer to a backend write: the new table contents, or the error it reported. */
  datatype Result<+T> = Ok(value: T) | Err(error: DbError)

  /** SQLSTATE code of a unique-constraint violation. */
  const UniqueViolation := "23505"

  /** The error the store reports when an insert would duplicate a unique key. */
  const DuplicateKey := DbError(UniqueViolation, "duplicate key value violates unique constraint")
}

=== FILE: enroll.dfy ===
/** Joining a class by invite code (`handleJoin`) and the normalisation the
  invite-code field applies while the student types.
 */
module Enroll {
  import opened Base
  import Text

  /** The `maxLength` of the invite-code input. */
  const CodeLength := 6
  /** The shortest code the submit button accepts. */
  const MinSubmitLength := 3

  /** The field's new value after an edit: the browser keeps at most six
    characters and `onChange` upper-cases them. */
  function OnCodeChange(raw: string): (code: string)
    ensures |code| <= CodeLength
    ensures |code| == if |raw| < CodeLength then |raw| else CodeLength
    ensures forall i :: 0 <= i < |code| ==> !('a' <= code[i] <= 'z')
    ensures forall i :: 0 <= i < |code| ==> code[i] == Text.UpperChar(raw[i])
  {
    var kept := if |raw| <= CodeLength then raw else raw[..CodeLength];
    Text.ToUpper(kept)
  }

  /** Editing an already normalised value without adding anything leaves it unchanged. */
  lemma OnCodeChangeIdempotent(raw: string)
    ensures OnCodeChange(OnCodeChange(raw)) == OnCodeChange(raw)
  {
    var code := OnCodeChange(raw);
    assert OnCodeChange(code) == Text.ToUpper(code);
    Text.ToUpperIdempotent(if |raw| <= CodeLength then raw else raw[..CodeLength]);
  }

  /** `disabled={isLoading || code.length < 3}`, negated. */
  predicate CanSubmit(code: string, loading: bool) {
    !loading && |code| >= MinSubmitLength
  }

  /** After any edit the button is enabled exactly when nothing is loading and
    at least three characters were typed; the field never holds more than six. */
  lemma CanSubmitAfterEdit(raw: string, loading: bool)
    ensures CanSubmit(OnCodeChange(raw), loading) <==> !loading && |raw| >= MinSubmitLength
    ensures CanSubmit(OnCodeChange(raw), loading) ==> MinSubmitLength <= |OnCodeChange(raw)| <= CodeLength
  {
  }

  /** A row of `classes` as the join handler reads it. */
  datatype ClassRow = ClassRow(id: string, name: string, inviteCode: string)

  /** A row of `enrollments`: the (student, class) pair. */
  datatype Enrollment = Enrollment(studentId: string, classId: string)

  datatype JoinOutcome = Joined(className: string) | Rejected(message: string)

  datatype JoinResult = JoinResult(outcome: JoinOutcome, enrollments: set<Enrollment>)

  const NotLoggedIn := "Not logged in"
  const InvalidInvite := "Invalid Invite Code. Please check and try again."
  const AlreadyEnrolled := "You are already enrolled in this class!"

  function WithCode(classes: seq<ClassRow>, code: string): (r: seq<ClassRow>)
    ensures forall c :: c in r <==> c in classes && c.inviteCode == code
  {
    if classes == [] then []
    else
      var rest := WithCode(classes[1..], code);
      assert classes == [classes[0]] + classes[1..];
      if classes[0].inviteCode == code then [classes[0]] + rest else rest
  }

  /** `.eq("invite_code", code).single()`: the class when exactly one carries the code. */
  function FindClass(classes: seq<ClassRow>, code: string): (r: Option<ClassRow>)
    ensures r.Some? <==> |WithCode(classes, code)| == 1
    ensures r.Some? ==> r.value in classes && r.value.inviteCode == code
  {
    var found := WithCode(classes, code);
    if |found| == 1 then
      assert found[0] in found;
      Some(found[0])
    else None
  }

  /** With no class carrying the code, the filter selects nothing. */
  lemma NoCarrier(classes: seq<ClassRow>, code: string)
    requires forall j :: 0 <= j < |classes| ==> classes[j].inviteCode != code
    ensures WithCode(classes, code) == []
  {
  }

  /** With exactly the `k`-th class carrying the code, the filter selects that
    class once. */
  lemma {:induction false} OnlyCarrier(classes: seq<ClassRow>, code: string, k: nat)
    requires k < |classes| && classes[k].inviteCode == code
    requires forall j :: 0 <= j < |classes| && j != k ==> classes[j].inviteCode != code
    ensures WithCode(classes, code) == [classes[k]]
  {
    if k == 0 {
      NoCarrier(classes[1..], code);
    } else {
      OnlyCarrier(classes[1..], code, k - 1);
    }
  }

  /** `.single()` answers with the class whenever exactly one class carries
    the code. */
  lemma FindClassFindsUnique(classes: seq<ClassRow>, code: string, k: nat)
    requires k < |classes| && classes[k].inviteCode == code
    requires forall j :: 0 <= j < |classes| && j != k ==> classes[j].inviteCode != code
    ensures FindClass(classes, code) == Some(classes[k])
  {
    OnlyCarrier(classes, code, k);
  }

  /** The class the handler looks up: `.eq("invite_code", code.trim()).single()`. */
  function ClassForCode(classes: seq<ClassRow>, code: string): Option<ClassRow>
  {
    FindClass(classes, Text.Trim(code))
  }

  /** `handleJoin` against the signed-in `user`, the class table and the
    enrollment table; `fault` is what the backend may report for the insert. */
  function Join(user: Option<string>, code: string, classes: seq<ClassRow>,
                enrollments: set<Enrollment>, fault: Option<DbError>): (r: JoinResult)
    ensures r.outcome.Rejected? ==> r.enrollments == enrollments
    ensures user.None? ==> r.outcome == Rejected(NotLoggedIn)
    ensures user.Some? && ClassForCode(classes, code).None? ==> r.outcome == Rejected(InvalidInvite)
    ensures user.Some? && ClassForCode(classes, code).Some?
      && Enrollment(user.value, ClassForCode(classes, code).value.id) in enrollments
      ==> r.outcome == Rejected(AlreadyEnrolled)
    ensures user.Some? && fault.Some? && ClassForCode(classes, code).Some?
      && Enrollment(user.value, ClassForCode(classes, code).value.id) !in enrollments
      ==> r.outcome == Rejected(fault.value.message)
    ensures r.outcome.Joined? <==>
      user.Some? && fault.None? && ClassForCode(classes, code).Some?
      && Enrollment(user.value, ClassForCode(classes, code).value.id) !in enrollments
    ensures r.outcome.Joined? ==> r.outcome.className == ClassForCode(classes, code).value.name
    ensures r.outcome.Joined? ==>
      r.enrollments == enrollments + {Enrollment(user.value, ClassForCode(classes, code).value.id)}
  {
    if user.None? then JoinResult(Rejected(NotLoggedIn), enrollments)
    else JoinClass(user.value, ClassForCode(classes, code), enrollments, fault)
  }

  /** The rest of `handleJoin` once the class lookup has answered `found`. */
  function JoinClass(user: string, found: Option<ClassRow>, enrollments: set<Enrollment>, fault: Option<DbError>)
    : JoinResult
  {
    match found
    case None => JoinResult(Rejected(InvalidInvite), enrollments)
    case Some(c) =>
      var pair := Enrollment(user, c.id);
      if pair in enrollments then JoinResult(Rejected(AlreadyEnrolled), enrollments)
      else if fault.Some? then JoinResult(Rejected(fault.value.message), enrollments)
      else JoinResult(Joined(c.name), enrollments + {pair})
  }

  /** Joining the same class twice: when the first attempt succeeds, the
    second is refused as already enrolled and the table holds the one pair the
    first attempt added. */
  lemma JoinTwice(user: string, code: string, classes: seq<ClassRow>, enrollments: set<Enrollment>)
    ensures var first := Join(Some(user), code, classes, enrollments, None);
      var second := Join(Some(user), code, classes, first.enrollments, None);
      first.outcome.Joined? ==>
        && second.outcome == Rejected(AlreadyEnrolled)
        && second.enrollments == first.enrollments
        && |first.enrollments| == |enrollments| + 1
  {
    var found := ClassForCode(classes, code);
    var first := Join(Some(user), code, classes, enrollments, None);
    assert first == JoinClass(user, found, enrollments, None);
    assert Join(Some(user), code, classes, first.enrollments, None) == JoinClass(user, found, first.enrollments, None);
  }
}

=== FILE: repair.dfy ===
/** The account-repair page (`fixProfile`): recreate a missing profile row as a
  recovered teacher, and the page's idle/loading/success/error status machine.
 */
module Repair {
  import opened Base
  import opened Routing

  datatype Status = Idle | Loading | Success | Error

  /** The moves the page allows: the button starts a repair from Idle, the
    repair ends in Success or Error, and "Try Again" returns from Error. */
  predicate Transition(from: Status, to: Status) {
    || (from == Idle && to == Loading)
    || (from == Loading && (to == Success || to == Error))
    || (from == Error && to == Idle)
  }

  /** Each status in `trace` is a legal move from the one before, starting at `start`. */
  predicate ValidTrace(start: Status, trace: seq<Status>)
    decreases |trace|
  {
    trace == [] || (Transition(start, trace[0]) && ValidTrace(trace[0], trace[1..]))
  }

  /** The signed-in user as the auth client reports it; the email may be missing. */
  datatype User = User(id: string, email: Option<string>)

  datatype Page = Page(status: Status, message: string)

  /** The statuses the page went through, where it ended and the profile table. */
  datatype Repaired = Repaired(trace: seq<Status>, page: Page, profiles: map<string, Profile>)

  const NotLoggedIn := "You are not logged in."
  const AlreadyExists := "Your profile already exists! You are good to go."
  const Created := "Success! Your missing profile has been created."
  const RecoveredName := "Teacher (Recovered)"

  /** The row the repair inserts for `u`. */
  function RecoveredProfile(u: User): (p: Profile)
    ensures p.id == u.id && p.email == u.email && p.role == TeacherRole && p.fullName == Some(RecoveredName)
  {
    Profile(u.id, Some(RecoveredName), u.email, TeacherRole)
  }

  /** The backend's insert into `profiles`, keyed by id: a `fault` wins,
    otherwise an existing id is a key violation. */
  function InsertProfile(profiles: map<string, Profile>, p: Profile, fault: Option<DbError>): (r: Result<map<string, Profile>>)
    ensures r.Ok? <==> fault.None? && p.id !in profiles
    ensures r.Ok? ==> r.value == profiles[p.id := p]
    ensures fault.Some? ==> r == Err(fault.value)
  {
    if fault.Some? then Err(fault.value)
    else if p.id in profiles then Err(DuplicateKey)
    else Ok(profiles[p.id := p])
  }

  /** Pressing "Fix My Account" (only offered while the page is idle). */
  function FixProfile(page: Page, user: Option<User>, profiles: map<string, Profile>, fault: Option<DbError>): (r: Repaired)
    requires page.status == Idle
    ensures ValidTrace(Idle, r.trace) && |r.trace| == 2 && r.trace[1] == r.page.status
    ensures user.None? ==> r == Repaired([Loading, Error], Page(Error, NotLoggedIn), profiles)
    ensures user.Some? && user.value.id in profiles ==> r == Repaired([Loading, Success], Page(Success, AlreadyExists), profiles)
    ensures user.Some? && user.value.id !in profiles && fault.Some?
      ==> r == Repaired([Loading, Error], Page(Error, fault.value.message), profiles)
    ensures r.page.status == Success <==> user.Some? && (user.value.id in profiles || fault.None?)
    ensures r.profiles != profiles <==> user.Some? && user.value.id !in profiles && fault.None?
    ensures r.profiles != profiles ==>
      r.profiles == profiles[user.value.id := RecoveredProfile(user.value)] && r.page == Page(Success, Created)
  {
    if user.None? then Repaired([Loading, Error], Page(Error, NotLoggedIn), profiles)
    else if user.value.id in profiles then Repaired([Loading, Success], Page(Success, AlreadyExists), profiles)
    else match InsertProfile(profiles, RecoveredProfile(user.value), fault)
      case Err(e) => Repaired([Loading, Error], Page(Error, e.message), profiles)
      case Ok(updated) =>
        assert user.value.id in updated;
        Repaired([Loading, Success], Page(Success, Created), updated)
  }

  /** "Try Again": back to Idle from Error; the button exists only there. */
  function TryAgain(page: Page): (r: Page)
    requires page.status == Error
    ensures Transition(page.status, r.status) && r.status == Idle
  {
    Page(Idle, page.message)
  }

  /** Running the repair twice from a missing profile: the first run inserts
    the one recovered profile; the second finds it and changes nothing. */
  lemma RepairIdempotent(u: User, profiles: map<string, Profile>)
    requires u.id !in profiles
    ensures var first := FixProfile(Page(Idle, ""), Some(u), profiles, None);
      var second := FixProfile(Page(Idle, ""), Some(u), first.profiles, None);
      && first.profiles == profiles[u.id := RecoveredProfile(u)]
      && |first.profiles| == |profiles| + 1
      && second.profiles == first.profiles
      && second.page == Page(Success, AlreadyExists)
  {
  }
}

=== FILE: report.dfy ===
/** The attendance export of the teacher dashboard (`handleExportReport`): from
  the enrolled students, the class's sessions and the attendance logs it builds
  one spreadsheet row per student, with a Present/Absent cell per session date,
  the totals and a rounded percentage.

  The three backend reads are parameters: `None` stands for a query that
  answered with `data: null`. Sessions arrive in the order the query asked for
  (ascending `session_date`); the model takes that order as given.
 */
module Report {
  import opened Base
  import Text

  /** The `student:profiles(id, full_name, email)` part of an enrollment row. */
  datatype Student = Student(id: string, fullName: string, email: Option<string>)

  /** A row of `attendance_sessions` as selected for the export. */
  datatype Session = Session(id: string, date: string)

  /** A row of `attendance_logs` as selected for the export. */
  datatype Log = Log(studentId: string, sessionId: string, status: string)

  datatype Mark = Present | Absent

  /** One spreadsheet row: "Student Name", "Email", one column per session
    date, "Total Present", "Total Sessions" and "Attendance %". */
  datatype Row = Row(
    name: string,
    email: Option<string>,
    marks: map<string, Mark>,
    totalPresent: nat,
    totalSessions: nat,
    percentage: string)

  /** What pressing "Excel" produces: an error toast, or the log query that was
    issued (the session ids) together with the rows handed to the spreadsheet
    writer. */
  datatype Export = Aborted(message: string) | Download(logQuery: seq<string>, rows: seq<Row>)

  const NoDataMessage := "No data found to export."
  const FailureMessage := "Failed to generate report"

  // ---------------------------------------------------------------------------
  // Marks and counts for one student

  predicate Matches(l: Log, sessionId: string, studentId: string) {
    l.sessionId == sessionId && l.studentId == studentId
  }

  /** Some log records `studentId` in `session`, whatever its status. */
  ghost predicate Attended(logs: seq<Log>, session: Session, studentId: string) {
    exists k :: 0 <= k < |logs| && Matches(logs[k], session.id, studentId)
  }

  /** `logs.find(l => l.session_id === sessionId && l.student_id === studentId)`. */
  function FindLog(logs: seq<Log>, sessionId: string, studentId: string): (r: Option<Log>)
    ensures r.Some? ==> r.value in logs && Matches(r.value, sessionId, studentId)
    ensures r.None? ==> forall k :: 0 <= k < |logs| ==> !Matches(logs[k], sessionId, studentId)
  {
    if logs == [] then None
    else if Matches(logs[0], sessionId, studentId) then Some(logs[0])
    else FindLog(logs[1..], sessionId, studentId)
  }

  /** The cell of one session: "Present" exactly when a matching log exists. */
  function MarkFor(logs: seq<Log>, session: Session, studentId: string): (m: Mark)
    ensures m == Present <==> Attended(logs, session, studentId)
  {
    var found := FindLog(logs, session.id, studentId);
    assert found.Some? ==> exists k :: 0 <= k < |logs| && logs[k] == found.value;
    if found.Some? then Present else Absent
  }

  /** `presentCount` after the `forEach` over `sessions`: one per session with a
    matching log, so several logs for one session still count once. */
  function PresentCount(sessions: seq<Session>, logs: seq<Log>, studentId: string): (n: nat)
    ensures n <= |sessions|
    ensures n == |sessions| <==> forall i :: 0 <= i < |sessions| ==> Attended(logs, sessions[i], studentId)
    ensures n == 0 <==> forall i :: 0 <= i < |sessions| ==> !Attended(logs, sessions[i], studentId)
  {
    if sessions == [] then 0
    else
      var last := sessions[|sessions| - 1];
      var before := PresentCount(sessions[..|sessions| - 1], logs, studentId);
      before + (if MarkFor(logs, last, studentId) == Present then 1 else 0)
  }

  /** The indices of the sessions the student attended. */
  ghost function AttendedIndices(sessions: seq<Session>, logs: seq<Log>, studentId: string): set<nat>
  {
    set i: nat | i < |sessions| && Attended(logs, sessions[i], studentId)
  }

  /** Total Present is the number of attended sessions. */
  lemma {:induction false} PresentCountIsAttendedSessions(sessions: seq<Session>, logs: seq<Log>, studentId: string)
    ensures PresentCount(sessions, logs, studentId) == |AttendedIndices(sessions, logs, studentId)|
  {
    if sessions != [] {
      var n := |sessions| - 1;
      var before := sessions[..n];
      PresentCountIsAttendedSessions(before, logs, studentId);
      AttendedIndicesSnoc(sessions, logs, studentId);
    }
  }

  lemma AttendedIndicesSnoc(sessions: seq<Session>, logs: seq<Log>, studentId: string)
    requires sessions != []
    ensures var n := |sessions| - 1;
      AttendedIndices(sessions, logs, studentId)
      == AttendedIndices(sessions[..n], logs, studentId)
         + (if Attended(logs, sessions[n], studentId) then {n} else {})
  {
    var n := |sessions| - 1;
    var before := sessions[..n];
    var a := AttendedIndices(before, logs, studentId);
    var b := AttendedIndices(sessions, logs, studentId);
    forall i: nat | i < n ensures before[i] == sessions[i] { }
  }

  /** The session dates, which become the row's column keys. */
  ghost function Dates(sessions: seq<Session>): set<string>
  {
    set i | 0 <= i < |sessions| :: sessions[i].date
  }

  /** The row object after `row[session.session_date] = status` for every
    session in turn: a later session with the same date overwrites the cell. */
  function Marks(sessions: seq<Session>, logs: seq<Log>, studentId: string): (m: map<string, Mark>)
    ensures m.Keys == Dates(sessions)
  {
    if sessions == [] then map[]
    else
      var last := sessions[|sessions| - 1];
      var before := sessions[..|sessions| - 1];
      var m := Marks(before, logs, studentId);
      assert Dates(sessions) == Dates(before) + {last.date} by {
        forall d | d in Dates(sessions) ensures d in Dates(before) + {last.date} {
          var i :| 0 <= i < |sessions| && sessions[i].date == d;
          if i < |sessions| - 1 {
            assert before[i].date == d;
          }
        }
      }
      m[last.date := MarkFor(logs, last, studentId)]
  }

  /** The cell under a date holds the mark of the last session on that date. */
  lemma {:induction false} MarkOfLastSessionOnDate(sessions: seq<Session>, logs: seq<Log>, studentId: string, i: nat)
    requires i < |sessions|
    requires forall j :: i < j < |sessions| ==> sessions[j].date != sessions[i].date
    ensures Marks(sessions, logs, studentId)[sessions[i].date] == MarkFor(logs, sessions[i], studentId)
  {
    var n := |sessions| - 1;
    if i < n {
      MarkOfLastSessionOnDate(sessions[..n], logs, studentId, i);
    }
  }

  /** Two sessions on the same date share one column: the cell shows only the
    later session, yet both sessions count toward Total Present. */
  lemma SameDateSessionsShareOneCell(logs: seq<Log>, studentId: string, first: Session, second: Session)
    requires first.date == second.date
    requires Attended(logs, first, studentId) && !Attended(logs, second, studentId)
    ensures Marks([first, second], logs, studentId) == map[first.date := Absent]
    ensures PresentCount([first, second], logs, studentId) == 1
  {
    assert [first, second][..1] == [first];
    assert [first][..0] == [];
  }

  // ---------------------------------------------------------------------------
  // Percentage

  /** `(present / total * 100).toFixed(0)` for `total > 0`, as exact half-up
    rounding of the rational `100 * present / total`. */
  function RoundedPercent(present: nat, total: nat): (k: nat)
    requires total > 0
    ensures 2 * total * k <= 200 * present + total < 2 * total * (k + 1)
    ensures present <= total ==> k <= 100
    ensures present == total ==> k == 100
    ensures present == 0 ==> k == 0
  {
    var a := 200 * present + total;
    var b := 2 * total;
    var k := a / b;
    DivisionBounds(a, b);
    assert present <= total ==> k <= 100 by {
      if present <= total {
        assert a <= 201 * total < b * 101;
        MulLessCancel(b, k, 101);
      }
    }
    assert present == total ==> k == 100 by {
      if present == total {
        assert b * 100 <= a < b * 101;
        DivisionUnique(a, b, 100);
      }
    }
    assert present == 0 ==> k == 0 by {
      if present == 0 {
        DivisionUnique(a, b, 0);
      }
    }
    k
  }

  lemma DivisionBounds(a: nat, b: nat)
    requires b > 0
    ensures b * (a / b) <= a < b * (a / b + 1)
  {
    assert a == b * (a / b) + a % b;
  }

  lemma MulLessCancel(b: nat, x: nat, y: nat)
    requires b > 0 && b * x < b * y
    ensures x < y
  {
    if x >= y {
      MulMonotone(b, y, x);
    }
  }

  lemma DivisionUnique(a: nat, b: nat, q: nat)
    requires b > 0 && b * q <= a < b * (q + 1)
    ensures a / b == q
  {
    DivisionBounds(a, b);
    var k := a / b;
    if k < q {
      MulMonotone(b, k + 1, q);
    } else if k > q {
      MulMonotone(b, q + 1, k);
    }
  }

  lemma MulMonotone(b: nat, x: nat, y: nat)
    requires x <= y
    ensures b * x <= b * y
  {
    assert b * y == b * x + b * (y - x);
  }

  /** The "Attendance %" cell. */
  function PercentageCell(present: nat, total: nat): (cell: string)
    ensures total == 0 ==> cell == "0%"
    ensures total > 0 ==> cell == Text.NatToDecimal(RoundedPercent(present, total)) + "%"
  {
    if total > 0 then Text.NatToDecimal(RoundedPercent(present, total)) + "%" else "0%"
  }

  /** The percentage cell is between "0%" and "100%", reading "100%" when every
    session was attended and "0%" when none was. */
  lemma PercentageCellBounds(present: nat, total: nat)
    requires present <= total
    ensures exists k: nat :: k <= 100 && PercentageCell(present, total) == Text.NatToDecimal(k) + "%"
    ensures present == 0 ==> PercentageCell(present, total) == "0%"
    ensures 0 < present == total ==> PercentageCell(present, total) == "100%"
  {
    if total > 0 {
      var k := RoundedPercent(present, total);
      assert PercentageCell(present, total) == Text.NatToDecimal(k) + "%";
    } else {
      assert PercentageCell(present, total) == Text.NatToDecimal(0) + "%";
    }
    assert Text.NatToDecimal(100) == Text.NatToDecimal(10) + "0";
    assert Text.NatToDecimal(10) == Text.NatToDecimal(1) + "0";
  }

  // ---------------------------------------------------------------------------
  // Rows and the export

  /** The row the `sortedStudents.map` callback builds for one student. */
  function RowFor(student: Student, sessions: seq<Session>, logs: seq<Log>): (r: Row)
    ensures r.name == student.fullName && r.email == student.email
    ensures r.totalSessions == |sessions|
    ensures r.totalPresent <= r.totalSessions
    ensures r.marks.Keys == Dates(sessions)
    ensures r.marks == Marks(sessions, logs, student.id)
    ensures r.totalPresent == PresentCount(sessions, logs, student.id)
    ensures r.percentage == PercentageCell(r.totalPresent, r.totalSessions)
  {
    var present := PresentCount(sessions, logs, student.id);
    Row(student.fullName, student.email, Marks(sessions, logs, student.id),
        present, |sessions|, PercentageCell(present, |sessions|))
  }

  /** `a.full_name.localeCompare(b.full_name) <= 0`, abstracted as a total preorder. */
  ghost predicate TotalPreorder(le: (string, string) -> bool) {
    && (forall a, b :: le(a, b) || le(b, a))
    && (forall a, b, c :: le(a, b) && le(b, c) ==> le(a, c))
  }

  ghost predicate SortedByName(le: (string, string) -> bool, xs: seq<Student>) {
    forall i, j :: 0 <= i < j < |xs| ==> le(xs[i].fullName, xs[j].fullName)
  }

  /** A student at most the head of a sorted list can go in front of it. */
  lemma SortedCons(le: (string, string) -> bool, y: Student, rest: seq<Student>)
    requires TotalPreorder(le) && SortedByName(le, rest)
    requires rest != [] ==> le(y.fullName, rest[0].fullName)
    ensures SortedByName(le, [y] + rest)
  {
    var r := [y] + rest;
    forall i, j | 0 <= i < j < |r| ensures le(r[i].fullName, r[j].fullName) {
      if i == 0 {
        if j > 1 {
          assert le(rest[0].fullName, rest[j - 1].fullName);
        }
      } else {
        assert r[i] == rest[i - 1] && r[j] == rest[j - 1];
      }
    }
  }

  /** Places `x` before the first student it does not follow. */
  function InsertByName(le: (string, string) -> bool, x: Student, ys: seq<Student>): (r: seq<Student>)
    requires TotalPreorder(le) && SortedByName(le, ys)
    ensures |r| == |ys| + 1
    ensures multiset(r) == multiset(ys) + multiset{x}
    ensures SortedByName(le, r)
    ensures r[0] == x || (ys != [] && r[0] == ys[0])
  {
    if ys == [] then [x]
    else if le(x.fullName, ys[0].fullName) then
      SortedCons(le, x, ys);
      [x] + ys
    else
      assert SortedByName(le, ys[1..]) by {
        forall i, j | 0 <= i < j < |ys| - 1 ensures le(ys[1..][i].fullName, ys[1..][j].fullName) {
          assert ys[1..][i] == ys[i + 1] && ys[1..][j] == ys[j + 1];
        }
      }
      var rest := InsertByName(le, x, ys[1..]);
      assert ys == [ys[0]] + ys[1..];
      assert le(ys[0].fullName, rest[0].fullName) by {
        if rest[0] != x {
          assert rest[0] == ys[1];
        }
      }
      SortedCons(le, ys[0], rest);
      [ys[0]] + rest
  }

  /** `Array.prototype.sort` with the name comparator, as insertion sort. */
  function SortByName(le: (string, string) -> bool, xs: seq<Student>): (r: seq<Student>)
    requires TotalPreorder(le)
    ensures |r| == |xs|
    ensures multiset(r) == multiset(xs)
    ensures SortedByName(le, r)
  {
    if xs == [] then []
    else
      assert xs == [xs[0]] + xs[1..];
      InsertByName(le, xs[0], SortByName(le, xs[1..]))
  }

  function Names(xs: seq<Student>): (ns: seq<string>)
    ensures |ns| == |xs|
    ensures forall i :: 0 <= i < |ns| ==> ns[i] == xs[i].fullName
  {
    if xs == [] then [] else [xs[0].fullName] + Names(xs[1..])
  }

  function RowNames(rows: seq<Row>): (ns: seq<string>)
    ensures |ns| == |rows|
    ensures forall i :: 0 <= i < |ns| ==> ns[i] == rows[i].name
  {
    if rows == [] then [] else [rows[0].name] + RowNames(rows[1..])
  }

  /** `sortedStudents.map(student => ...)`: one row per student, in order. */
  function RowsFor(xs: seq<Student>, sessions: seq<Session>, logs: seq<Log>): (rows: seq<Row>)
    ensures |rows| == |xs|
    ensures forall i :: 0 <= i < |rows| ==> rows[i] == RowFor(xs[i], sessions, logs)
  {
    if xs == [] then [] else [RowFor(xs[0], sessions, logs)] + RowsFor(xs[1..], sessions, logs)
  }

  lemma {:induction false} RowNamesOfRowsFor(xs: seq<Student>, sessions: seq<Session>, logs: seq<Log>)
    ensures RowNames(RowsFor(xs, sessions, logs)) == Names(xs)
  {
    if xs != [] {
      RowNamesOfRowsFor(xs[1..], sessions, logs);
    }
  }

  /** Inserting a student adds exactly their name to the names. */
  lemma {:induction false} InsertByNameNames(le: (string, string) -> bool, x: Student, ys: seq<Student>)
    requires TotalPreorder(le) && SortedByName(le, ys)
    ensures multiset(Names(InsertByName(le, x, ys))) == multiset(Names(ys)) + multiset{x.fullName}
  {
    if ys == [] {
    } else if le(x.fullName, ys[0].fullName) {
      assert ([x] + ys)[1..] == ys;
    } else {
      var rest := InsertByName(le, x, ys[1..]);
      InsertByNameNames(le, x, ys[1..]);
      assert ([ys[0]] + rest)[1..] == rest;
    }
  }

  /** Sorting reorders the students, so it reorders their names the same way. */
  lemma {:induction false} SortByNameNames(le: (string, string) -> bool, xs: seq<Student>)
    requires TotalPreorder(le)
    ensures multiset(Names(SortByName(le, xs))) == multiset(Names(xs))
  {
    if xs != [] {
      SortByNameNames(le, xs[1..]);
      InsertByNameNames(le, xs[0], SortByName(le, xs[1..]));
    }
  }

  /** Inserting a student adds exactly their row to the rows. */
  lemma {:induction false} InsertByNameRows(le: (string, string) -> bool, x: Student, ys: seq<Student>,
                                            sessions: seq<Session>, logs: seq<Log>)
    requires TotalPreorder(le) && SortedByName(le, ys)
    ensures multiset(RowsFor(InsertByName(le, x, ys), sessions, logs))
      == multiset(RowsFor(ys, sessions, logs)) + multiset{RowFor(x, sessions, logs)}
  {
    if ys == [] {
    } else if le(x.fullName, ys[0].fullName) {
      assert ([x] + ys)[1..] == ys;
    } else {
      var rest := InsertByName(le, x, ys[1..]);
      InsertByNameRows(le, x, ys[1..], sessions, logs);
      assert ([ys[0]] + rest)[1..] == rest;
    }
  }

  /** Sorting the students reorders their rows and nothing else. */
  lemma {:induction false} SortByNameRows(le: (string, string) -> bool, xs: seq<Student>,
                                          sessions: seq<Session>, logs: seq<Log>)
    requires TotalPreorder(le)
    ensures multiset(RowsFor(SortByName(le, xs), sessions, logs)) == multiset(RowsFor(xs, sessions, logs))
  {
    if xs != [] {
      SortByNameRows(le, xs[1..], sessions, logs);
      InsertByNameRows(le, xs[0], SortByName(le, xs[1..]), sessions, logs);
    }
  }

  /** Every enrollment carries its student's profile. */
  predicate AllPresent(enrolled: seq<Option<Student>>) {
    forall k :: 0 <= k < |enrolled| ==> enrolled[k].Some?
  }

  /** `enrollments.map(e => e.student)`, once no entry is `null`. */
  function Students(enrolled: seq<Option<Student>>): (xs: seq<Student>)
    requires AllPresent(enrolled)
    ensures |xs| == |enrolled|
    ensures forall k :: 0 <= k < |xs| ==> enrolled[k] == Some(xs[k])
  {
    seq(|enrolled|, k requires 0 <= k < |enrolled| => enrolled[k].value)
  }

  /** `sessions.map(s => s.id)`, the argument of `.in("session_id", ...)`. */
  function SessionIds(sessions: seq<Session>): (ids: seq<string>)
    ensures |ids| == |sessions|
    ensures forall i :: 0 <= i < |ids| ==> ids[i] == sessions[i].id
  {
    seq(|sessions|, i requires 0 <= i < |sessions| => sessions[i].id)
  }

  /** The log list the rows are built from: a `null` answer finds nothing. */
  function LogTable(logs: Option<seq<Log>>): (t: seq<Log>)
    ensures logs.None? ==> t == []
    ensures logs.Some? ==> t == logs.value
  {
    if logs.Some? then logs.value else []
  }

  /** Every row in a permutation of `RowsFor(xs, ..)` is the row of a student of `xs`. */
  lemma RowsOfStudents(xs: seq<Student>, sessions: seq<Session>, logs: seq<Log>, rows: seq<Row>)
    requires multiset(rows) == multiset(RowsFor(xs, sessions, logs))
    ensures forall i :: 0 <= i < |rows| ==> exists s :: s in xs && rows[i] == RowFor(s, sessions, logs)
  {
    var built := RowsFor(xs, sessions, logs);
    forall i | 0 <= i < |rows| ensures exists s :: s in xs && rows[i] == RowFor(s, sessions, logs) {
      assert rows[i] in multiset(rows);
      assert rows[i] in built;
      var k :| 0 <= k < |built| && built[k] == rows[i];
      assert xs[k] in xs;
    }
  }

  /** Rows built from a list sorted by name are sorted by name. */
  lemma RowsForSorted(le: (string, string) -> bool, xs: seq<Student>, sessions: seq<Session>, logs: seq<Log>)
    requires SortedByName(le, xs)
    ensures forall i, j :: 0 <= i < j < |RowsFor(xs, sessions, logs)| ==>
      le(RowsFor(xs, sessions, logs)[i].name, RowsFor(xs, sessions, logs)[j].name)
  {
  }

  /** `sortedStudents.map(...)` over the students sorted by name: the rows
    handed to the spreadsheet writer. */
  function ReportRows(le: (string, string) -> bool, students: seq<Student>, sessions: seq<Session>, logs: seq<Log>)
    : (rows: seq<Row>)
    requires TotalPreorder(le)
    ensures |rows| == |students|
    ensures multiset(rows) == multiset(RowsFor(students, sessions, logs))
    ensures multiset(RowNames(rows)) == multiset(Names(students))
    ensures forall i, j :: 0 <= i < j < |rows| ==> le(rows[i].name, rows[j].name)
    ensures forall i :: 0 <= i < |rows| ==> exists s :: s in students && rows[i] == RowFor(s, sessions, logs)
  {
    var sorted := SortByName(le, students);
    var rows := RowsFor(sorted, sessions, logs);
    SortByNameNames(le, students);
    SortByNameRows(le, students, sessions, logs);
    RowNamesOfRowsFor(sorted, sessions, logs);
    RowsForSorted(le, sorted, sessions, logs);
    RowsOfStudents(students, sessions, logs, rows);
    rows
  }

  /** The whole export handler up to the spreadsheet writer. A `null` student
    in an enrollment makes the comparator or the row builder dereference
    `null`, which the handler's `catch` reports as a failure. A `null` log
    list makes every `logs?.find` undefined, so every cell is "Absent". */
  function ExportReport(
    le: (string, string) -> bool,
    enrollments: Option<seq<Option<Student>>>,
    sessions: Option<seq<Session>>,
    logs: Option<seq<Log>>): (out: Export)
    requires TotalPreorder(le)
    ensures out == Aborted(NoDataMessage)
      <==> enrollments.None? || sessions.None? || |sessions.value| == 0
    ensures out == Aborted(FailureMessage)
      <==> enrollments.Some? && sessions.Some? && |sessions.value| > 0 && !AllPresent(enrollments.value)
    ensures out.Download? <==>
      enrollments.Some? && sessions.Some? && |sessions.value| > 0 && AllPresent(enrollments.value)
    ensures out.Download? ==> out.logQuery == SessionIds(sessions.value)
    ensures out.Download? ==> |out.rows| == |enrollments.value|
    ensures out.Download? ==>
      multiset(out.rows) == multiset(RowsFor(Students(enrollments.value), sessions.value, LogTable(logs)))
    ensures out.Download? ==> multiset(RowNames(out.rows)) == multiset(Names(Students(enrollments.value)))
    ensures out.Download? ==> forall i, j :: 0 <= i < j < |out.rows| ==> le(out.rows[i].name, out.rows[j].name)
    ensures out.Download? ==> forall i :: 0 <= i < |out.rows| ==>
      exists s :: s in Students(enrollments.value) && out.rows[i] == RowFor(s, sessions.value, LogTable(logs))
  {
    if enrollments.None? || sessions.None? || |sessions.value| == 0 then Aborted(NoDataMessage)
    else if !AllPresent(enrollments.value) then Aborted(FailureMessage)
    else Download(SessionIds(sessions.value), ReportRows(le, Students(enrollments.value), sessions.value, LogTable(logs)))
  }

  /** When the export aborts for lack of data the log table is never consulted. */
  lemma NoDataIgnoresLogs(
    le: (string, string) -> bool,
    enrollments: Option<seq<Option<Student>>>,
    sessions: Option<seq<Session>>,
    logs1: Option<seq<Log>>,
    logs2: Option<seq<Log>>)
    requires TotalPreorder(le)
    requires enrollments.None? || sessions.None? || |sessions.value| == 0
    ensures ExportReport(le, enrollments, sessions, logs1) == ExportReport(le, enrollments, sessions, logs2) == Aborted(NoDataMessage)
  {
  }
}

=== FILE: routing.dfy ===
/** Profiles and the role-based routing shared by the sign-in, verification and
  dashboard pages.
 */
module Routing {
  import opened Base

  /** A row of the `profiles` table. `role` is stored as free text; the
    application writes "student" or "teacher". The name and the email may be
    `null`. */
  datatype Profile = Profile(id: string, fullName: Option<string>, email: Option<string>, role: string)

  const TeacherRole := "teacher"
  const StudentRole := "student"

  /** The pages a handler can navigate to. */
  datatype Route = LoginPage | TeacherHome | StudentHome

  /** The URL path of each route. */
  function Path(r: Route): (p: string)
    ensures r != LoginPage <==> |p| > 11 && p[..11] == "/dashboard/"
  {
    match r
    case LoginPage => "/auth/login"
    case TeacherHome => "/dashboard/teacher"
    case StudentHome => "/dashboard/student"
  }

  /** Each route has its own path. */
  lemma PathInjective(a: Route, b: Route)
    ensures Path(a) == Path(b) <==> a == b
  {
  }

  /** `.from("profiles").select(..).eq("id", id).single()`: the profile with that
    id, or `null` when there is none. */
  function ProfileOf(profiles: map<string, Profile>, id: string): (p: Option<Profile>)
    ensures p.Some? <==> id in profiles
    ensures p.Some? ==> p.value == profiles[id]
  {
    if id in profiles then Some(profiles[id]) else None
  }

  /** `profile?.role === "teacher" ? "/dashboard/teacher" : "/dashboard/student"`:
    only a profile whose role is exactly "teacher" reaches the teacher
    dashboard; any other role, and a missing profile, go to the student one. */
  function HomeFor(profile: Option<Profile>): (r: Route)
    ensures r != LoginPage
    ensures r == TeacherHome <==> profile.Some? && profile.value.role == TeacherRole
    ensures r == StudentHome <==> profile.None? || profile.value.role != TeacherRole
  {
    if profile.Some? && profile.value.role == TeacherRole then TeacherHome else StudentHome
  }
}

=== FILE: scan.dfy ===
/** The student's QR scan handler (`onScanSuccess`): token extraction from the
  decoded text, the session lookup, the attendance insert and the
  classification of what the student is told.
 */
module Scan {
  import opened Base
  import Text

  /** The query-string key that precedes the token in the QR payload URL. */
  const Marker := "token="

  /** Where the token ends: the next "token=" at or after `start`, or the end of the text. */
  function TokenEnd(text: string, start: nat): (e: nat)
    requires start <= |text|
    ensures start <= e <= |text|
    ensures e == |text| || Text.OccursAt(text, Marker, e)
    ensures forall k: nat :: start <= k < e ==> !Text.OccursAt(text, Marker, k)
  {
    match Text.IndexOf(text, Marker, start)
    case None => |text|
    case Some(j) => j
  }

  /** `text.includes("token=") ? text.split("token=")[1] : text`: the text
    between the first "token=" and the next one (or the end). */
  function ExtractToken(text: string): (token: string)
    ensures !Text.Contains(text, Marker) ==> token == text
  {
    if !Text.Includes(text, Marker) then text
    else match Text.IndexOf(text, Marker, 0)
      // `includes` held, so a first occurrence exists.
      case None => assert false; text
      case Some(i) => text[i + |Marker|..TokenEnd(text, i + |Marker|)]
  }

  /** "token=" has no proper prefix that is also a suffix, so two occurrences
    never overlap. */
  lemma MarkerUnbordered(k: nat)
    requires 0 < k < |Marker|
    ensures Marker[k..] != Marker[..|Marker| - k]
  {
    assert Marker[k] != Marker[0];
  }

  /** An occurrence inside a slice is an occurrence in the whole text. */
  lemma OccursInSlice(text: string, a: nat, b: nat, k: nat)
    requires a <= b <= |text|
    requires Text.OccursAt(text[a..b], Marker, k)
    ensures Text.OccursAt(text, Marker, a + k)
  {
    var m := |Marker|;
    var part := text[a..b];
    assert k + m <= |part|;
    assert |part[k..k + m]| == m;
    forall t | k <= t < k + m ensures part[t] == text[a + t] { }
    assert part[k..k + m] == text[a + k..a + k + m];
  }

  /** Occurrences in a suffix are occurrences in the whole text, shifted by the prefix. */
  lemma ShiftOccurrence(u: string, v: string, k: nat)
    ensures Text.OccursAt(u + v, Marker, |u| + k) <==> Text.OccursAt(v, Marker, k)
  {
    var m := |Marker|;
    if k + m <= |v| {
      assert (u + v)[|u| + k..|u| + k + m] == v[k..k + m];
    }
  }

  /** A slice with no occurrence starting inside it contains no marker. */
  lemma NoMarkerInSlice(text: string, a: nat, b: nat)
    requires a <= b <= |text|
    requires forall k: nat :: a <= k < b ==> !Text.OccursAt(text, Marker, k)
    ensures !Text.Contains(text[a..b], Marker)
  {
    if Text.Contains(text[a..b], Marker) {
      var k: nat :| Text.OccursAt(text[a..b], Marker, k);
      OccursInSlice(text, a, b, k);
    }
  }

  /** Text free of the marker, followed by nothing or by the marker, has no
    occurrence starting inside the first part: one would have to straddle
    the seam, which the unbordered marker rules out. */
  lemma NoMarkerBefore(u: string, v: string, k: nat)
    requires !Text.Contains(u, Marker)
    requires v == [] || Text.OccursAt(v, Marker, 0)
    requires k < |u|
    ensures !Text.OccursAt(u + v, Marker, k)
  {
    var m := |Marker|;
    var t := u + v;
    if k + m <= |u| {
      assert u[k..k + m] == t[k..k + m];
      assert !Text.OccursAt(u, Marker, k);
    } else if k + m <= |t| {
      var d := |u| - k;
      assert v != [] && |v| >= m;
      assert t[k..k + m][d..] == t[|u|..k + m] == v[..m - d];
      assert v[..m - d] == v[..m][..m - d] == Marker[..m - d];
      MarkerUnbordered(d);
    }
  }

  /** When the text holds the marker, the token is what follows its first
    occurrence, up to the next occurrence or the end; it never holds the
    marker itself, and any trailing text such as "&x=y" stays in it. */
  lemma ExtractTokenAfterFirstMarker(text: string, i: nat)
    requires Text.FirstOccurrence(text, Marker, i)
    ensures i + |Marker| <= |text|
    ensures ExtractToken(text) == text[i + |Marker|..TokenEnd(text, i + |Marker|)]
    ensures !Text.Contains(ExtractToken(text), Marker)
  {
    assert Text.IndexOf(text, Marker, 0) == Some(i);
    NoMarkerInSlice(text, i + |Marker|, TokenEnd(text, i + |Marker|));
  }

  /** A marker-free prefix puts the first marker right after it. */
  lemma FirstMarkerAfterPrefix(prefix: string, rest: string)
    requires !Text.Contains(prefix, Marker)
    requires Text.OccursAt(rest, Marker, 0)
    ensures Text.FirstOccurrence(prefix + rest, Marker, |prefix|)
  {
    forall k: nat | k < |prefix| ensures !Text.OccursAt(prefix + rest, Marker, k) {
      NoMarkerBefore(prefix, rest, k);
    }
    ShiftOccurrence(prefix, rest, 0);
  }

  /** A marker-free token followed by nothing or by a marker ends exactly there. */
  lemma TokenEndsAfterToken(head: string, token: string, suffix: string)
    requires !Text.Contains(token, Marker)
    requires suffix == [] || Text.OccursAt(suffix, Marker, 0)
    ensures TokenEnd(head + (token + suffix), |head|) == |head| + |token|
  {
    var text := head + (token + suffix);
    var start := |head|;
    forall j: nat | start <= j < start + |token| ensures !Text.OccursAt(text, Marker, j) {
      NoMarkerBefore(token, suffix, j - start);
      ShiftOccurrence(head, token + suffix, j - start);
    }
    if suffix != [] {
      ShiftOccurrence(head, token + suffix, |token|);
      ShiftOccurrence(token, suffix, 0);
    }
  }

  /** Scanning the issued payload gives back the token: for any prefix and
    token free of the marker, followed by nothing or by another "token=",
    extraction returns exactly the token. */
  lemma ExtractTokenRoundTrip(prefix: string, token: string, suffix: string)
    requires !Text.Contains(prefix, Marker) && !Text.Contains(token, Marker)
    requires suffix == [] || Text.OccursAt(suffix, Marker, 0)
    ensures ExtractToken(prefix + Marker + token + suffix) == token
  {
    var text := prefix + Marker + token + suffix;
    var head := prefix + Marker;
    assert text == prefix + (Marker + (token + suffix));
    assert text == head + (token + suffix);
    assert (Marker + (token + suffix))[..|Marker|] == Marker;
    FirstMarkerAfterPrefix(prefix, Marker + (token + suffix));
    ExtractTokenAfterFirstMarker(text, |prefix|);
    TokenEndsAfterToken(head, token, suffix);
    assert text[|head|..|head| + |token|] == token;
  }

  /** Text without an '=' cannot contain "token=". */
  lemma NoEqualsNoMarker(s: string)
    requires forall i :: 0 <= i < |s| ==> s[i] != '='
    ensures !Text.Contains(s, Marker)
  {
    forall i: nat | i + |Marker| <= |s| ensures !Text.OccursAt(s, Marker, i) {
      assert s[i..i + |Marker|][5] == s[i + 5];
    }
  }

  /** A character of `Math.random().toString(36)`: a digit or a lower-case letter. */
  predicate IsBase36(c: char) {
    '0' <= c <= '9' || 'a' <= c <= 'z'
  }

  /** The path of the page the QR code links to, up to the query string. */
  const ScanPath := "/dashboard/student/scan?"

  /** The QR payload `<origin>/dashboard/student/scan?token=<token>`, with an
    origin free of '=' and a base-36 token, scans back to exactly its token. */
  lemma ScanOfIssuedUrl(origin: string, token: string)
    requires forall i :: 0 <= i < |origin| ==> origin[i] != '='
    requires forall i :: 0 <= i < |token| ==> IsBase36(token[i])
    ensures ExtractToken(origin + ScanPath + Marker + token) == token
  {
    var head := origin + ScanPath;
    assert forall i :: 0 <= i < |head| ==> head[i] != '=' by {
      forall i | 0 <= i < |head| ensures head[i] != '=' {
        if i >= |origin| {
          assert head[i] == ScanPath[i - |origin|];
        }
      }
    }
    NoEqualsNoMarker(head);
    NoEqualsNoMarker(token);
    ExtractTokenRoundTrip(head, token, []);
    assert head + Marker + token + [] == origin + ScanPath + Marker + token;
  }

  // ---------------------------------------------------------------------------
  // The handler

  /** A row of `attendance_sessions`; `expiresAt` is stored but the scan never reads it. */
  datatype SessionRow = SessionRow(id: string, token: string, expiresAt: int)

  /** A row of `attendance_logs`, unique on (sessionId, studentId). */
  datatype LogRow = LogRow(sessionId: string, studentId: string, status: string)

  /** The page's state: `isProcessing`, and whether the camera scanner is rendered. */
  datatype Page = Page(processing: bool, scanning: bool)

  datatype Outcome = Ignored | Marked | Rejected(message: string)

  datatype Step = Step(page: Page, logs: seq<LogRow>, outcome: Outcome)

  const LoginFirst := "Please log in first."
  const InvalidCode := "Invalid QR Code"
  const AlreadyScanned := "Already scanned!"
  const PresentStatus := "present"

  /** The sessions carrying `token`. */
  function WithToken(sessions: seq<SessionRow>, token: string): (r: seq<SessionRow>)
    ensures forall s :: s in r <==> s in sessions && s.token == token
  {
    if sessions == [] then []
    else
      var rest := WithToken(sessions[1..], token);
      assert sessions == [sessions[0]] + sessions[1..];
      if sessions[0].token == token then [sessions[0]] + rest else rest
  }

  /** `.eq("qr_code_token", token).single()`: the session id when exactly one
    session carries the token; zero or several rows are an error. No expiry
    filter is applied. */
  function LookupSession(sessions: seq<SessionRow>, token: string): (r: Option<string>)
    ensures r.Some? <==> |WithToken(sessions, token)| == 1
    ensures r.Some? ==> exists s :: s in sessions && s.token == token && s.id == r.value
  {
    var found := WithToken(sessions, token);
    if |found| == 1 then
      assert found[0] in found;
      Some(found[0].id)
    else None
  }

  /** With no session carrying the token, the filter selects nothing. */
  lemma NoCarrier(sessions: seq<SessionRow>, token: string)
    requires forall j :: 0 <= j < |sessions| ==> sessions[j].token != token
    ensures WithToken(sessions, token) == []
  {
  }

  /** With exactly the `k`-th session carrying the token, the filter selects
    that session once. */
  lemma {:induction false} OnlyCarrier(sessions: seq<SessionRow>, token: string, k: nat)
    requires k < |sessions| && sessions[k].token == token
    requires forall j :: 0 <= j < |sessions| && j != k ==> sessions[j].token != token
    ensures WithToken(sessions, token) == [sessions[k]]
  {
    if k == 0 {
      NoCarrier(sessions[1..], token);
    } else {
      OnlyCarrier(sessions[1..], token, k - 1);
    }
  }

  /** `.single()` answers with the session whenever exactly one session
    carries the token. */
  lemma LookupFindsUnique(sessions: seq<SessionRow>, token: string, k: nat)
    requires k < |sessions| && sessions[k].token == token
    requires forall j :: 0 <= j < |sessions| && j != k ==> sessions[j].token != token
    ensures LookupSession(sessions, token) == Some(sessions[k].id)
  {
    OnlyCarrier(sessions, token, k);
  }

  predicate SamePair(l: LogRow, sessionId: string, studentId: string) {
    l.sessionId == sessionId && l.studentId == studentId
  }

  /** Number of logs for the pair. */
  function PairCount(logs: seq<LogRow>, sessionId: string, studentId: string): (n: nat)
    ensures n <= |logs|
    ensures n == 0 <==> forall k :: 0 <= k < |logs| ==> !SamePair(logs[k], sessionId, studentId)
  {
    if logs == [] then 0
    else (if SamePair(logs[0], sessionId, studentId) then 1 else 0) + PairCount(logs[1..], sessionId, studentId)
  }

  lemma {:induction false} PairCountAppend(logs: seq<LogRow>, row: LogRow, sessionId: string, studentId: string)
    ensures PairCount(logs + [row], sessionId, studentId)
      == PairCount(logs, sessionId, studentId) + (if SamePair(row, sessionId, studentId) then 1 else 0)
  {
    if logs == [] {
      assert logs + [row] == [row];
    } else {
      assert (logs + [row])[1..] == logs[1..] + [row];
      PairCountAppend(logs[1..], row, sessionId, studentId);
    }
  }

  /** The backend's insert into `attendance_logs`: a transport or policy
    `fault` wins; otherwise the unique (session, student) key rejects a
    second row with code 23505. */
  function InsertLog(logs: seq<LogRow>, row: LogRow, fault: Option<DbError>): (r: Result<seq<LogRow>>)
    ensures fault.Some? ==> r == Err(fault.value)
    ensures fault.None? && PairCount(logs, row.sessionId, row.studentId) > 0 ==> r == Err(DuplicateKey)
    ensures r.Ok? <==> fault.None? && PairCount(logs, row.sessionId, row.studentId) == 0
    ensures r.Ok? ==> r.value == logs + [row]
  {
    if fault.Some? then Err(fault.value)
    else if PairCount(logs, row.sessionId, row.studentId) > 0 then Err(DuplicateKey)
    else Ok(logs + [row])
  }

  /** The message shown for a failed insert: 23505 becomes "Already scanned!";
    any other error is shown as the backend worded it. */
  function InsertErrorMessage(e: DbError): (msg: string)
    ensures e.code == UniqueViolation ==> msg == AlreadyScanned
    ensures e.code != UniqueViolation ==> msg == e.message
  {
    if e.code == UniqueViolation then AlreadyScanned else e.message
  }

  /** Every failure ends the same way: processing cleared, scanner rendered again. */
  function Fail(logs: seq<LogRow>, message: string): (s: Step)
    ensures s.page == Page(false, true) && s.logs == logs && s.outcome == Rejected(message)
  {
    Step(Page(false, true), logs, Rejected(message))
  }

  /** `onScanSuccess(decodedText)` against the signed-in `user`, the session
    table and the log table; `fault` is what the backend may report for the
    insert besides the key violation. */
  function OnScan(page: Page, text: string, user: Option<string>, sessions: seq<SessionRow>,
                  logs: seq<LogRow>, fault: Option<DbError>): (s: Step)
    ensures page.processing ==> s == Step(page, logs, Ignored)
    ensures !page.processing && user.None? ==> s == Fail(logs, LoginFirst)
    ensures !page.processing && user.Some? && LookupSession(sessions, ExtractToken(text)).None?
      ==> s == Fail(logs, InvalidCode)
    ensures s.outcome.Rejected? ==> s.page == Page(false, true) && s.logs == logs
    ensures s.outcome == Marked <==>
      && !page.processing && user.Some? && fault.None?
      && LookupSession(sessions, ExtractToken(text)).Some?
      && PairCount(logs, LookupSession(sessions, ExtractToken(text)).value, user.value) == 0
    ensures s.outcome == Marked ==>
      && s.page == Page(true, false)
      && s.logs == logs + [LogRow(LookupSession(sessions, ExtractToken(text)).value, user.value, PresentStatus)]
    ensures s.outcome == Ignored <==> page.processing
    ensures !page.processing && user.Some? && LookupSession(sessions, ExtractToken(text)).Some?
      && InsertLog(logs, LogRow(LookupSession(sessions, ExtractToken(text)).value, user.value, PresentStatus), fault).Err?
      ==> s == Fail(logs, InsertErrorMessage(
            InsertLog(logs, LogRow(LookupSession(sessions, ExtractToken(text)).value, user.value, PresentStatus), fault).error))
  {
    if page.processing then Step(page, logs, Ignored)
    else
      var token := ExtractToken(text);
      if user.None? then Fail(logs, LoginFirst)
      else match LookupSession(sessions, token)
        case None => Fail(logs, InvalidCode)
        case Some(sessionId) =>
          match InsertLog(logs, LogRow(sessionId, user.value, PresentStatus), fault)
          case Err(e) => Fail(logs, InsertErrorMessage(e))
          case Ok(updated) => Step(Page(true, false), updated, Marked)
  }

  /** Scanning the same code twice. The first scan records exactly one log and
    leaves the page processing, so a second decode on that same page is
    ignored. A repeated scan from a freshly opened scan page is told "Already
    scanned!" and adds nothing. */
  lemma ScanTwice(text: string, user: string, sessions: seq<SessionRow>, logs: seq<LogRow>)
    requires LookupSession(sessions, ExtractToken(text)).Some?
    requires PairCount(logs, LookupSession(sessions, ExtractToken(text)).value, user) == 0
    ensures var first := OnScan(Page(false, true), text, Some(user), sessions, logs, None);
      && first.outcome == Marked
      && PairCount(first.logs, LookupSession(sessions, ExtractToken(text)).value, user) == 1
      && var second := OnScan(Page(false, true), text, Some(user), sessions, first.logs, None);
      && second.outcome == Rejected(AlreadyScanned)
      && second.logs == first.logs
      && OnScan(first.page, text, Some(user), sessions, first.logs, None) == Step(first.page, first.logs, Ignored)
  {
    var sessionId := LookupSession(sessions, ExtractToken(text)).value;
    var row := LogRow(sessionId, user, PresentStatus);
    PairCountAppend(logs, row, sessionId, user);
  }
}

=== FILE: student_dashboard.dfy ===
/** The student dashboard: who may see it, the attendance total and the
  "My Classes" table with its fallbacks.
 */
module StudentDashboard {
  import opened Base
  import opened Routing
  import Text
  import TeacherDashboard

  datatype Access = Redirect(to: Route) | Render(profile: Profile)

  /** The page's guard: no user goes to the login page; a missing profile or
    any role other than "student" goes to the teacher dashboard. */
  function Guard(user: Option<string>, profiles: map<string, Profile>): (r: Access)
    ensures user.None? <==> r == Redirect(LoginPage)
    ensures r.Render? <==> user.Some? && user.value in profiles && profiles[user.value].role == StudentRole
    ensures r.Render? ==> r.profile == profiles[user.value]
    ensures user.Some? && r.Redirect? ==> r.to == TeacherHome
  {
    if user.None? then Redirect(LoginPage)
    else match ProfileOf(profiles, user.value)
      case None => Redirect(TeacherHome)
      case Some(p) => if p.role != StudentRole then Redirect(TeacherHome) else Render(p)
  }

  /** A signed-in user with no profile, or with a role that is neither
    "teacher" nor "student", is sent from each dashboard to the other, so
    neither page ever renders for them. */
  lemma DashboardsRedirectEachOther(user: string, profiles: map<string, Profile>)
    requires user !in profiles || (profiles[user].role != TeacherRole && profiles[user].role != StudentRole)
    ensures TeacherDashboard.Guard(Some(user), profiles) == Some(StudentHome)
    ensures Guard(Some(user), profiles) == Redirect(TeacherHome)
  {
  }

  /** `profile.full_name || "Student"`. */
  function Greeting(p: Profile): (name: string)
    ensures p.fullName.Some? && p.fullName.value != "" ==> name == p.fullName.value
    ensures p.fullName.None? || p.fullName.value == "" ==> name == "Student"
  {
    Text.OrElse(p.fullName, "Student")
  }

  const PresentStatus := "present"

  /** `attendanceLogs?.filter(log => log.status === "present").length || 0`. */
  function PresentCount(statuses: Option<seq<string>>): (n: nat)
    ensures statuses.None? ==> n == 0
    ensures statuses.Some? ==> n <= |statuses.value|
    ensures statuses.Some? ==> n == multiset(statuses.value)[PresentStatus]
  {
    match statuses
    case None => 0
    case Some(s) => CountPresent(s)
  }

  function CountPresent(s: seq<string>): (n: nat)
    ensures n <= |s|
    ensures n == multiset(s)[PresentStatus]
  {
    if s == [] then 0
    else
      assert s == [s[0]] + s[1..];
      (if s[0] == PresentStatus then 1 else 0) + CountPresent(s[1..])
  }

  /** Only logs whose status is exactly "present" count: the total reaches the
    number of logs exactly when every log is such. */
  lemma {:induction false} CountPresentAll(s: seq<string>)
    ensures CountPresent(s) == |s| <==> forall i :: 0 <= i < |s| ==> s[i] == PresentStatus
  {
    if s != [] {
      CountPresentAll(s[1..]);
      assert forall i :: 1 <= i < |s| ==> s[i] == s[1..][i - 1];
    }
  }

  /** An enrollment with its joined class and the class's teacher profile,
    each of which may be missing, as may their names. */
  datatype TeacherJoin = TeacherJoin(fullName: Option<string>)
  datatype ClassJoin = ClassJoin(name: Option<string>, teacher: Option<TeacherJoin>)
  datatype EnrollmentJoin = EnrollmentJoin(classId: string, joined: Option<ClassJoin>)

  datatype TableRow = ClassLine(className: string, instructor: string) | EmptyState

  const UnknownClass := "Unknown Class"
  const UnknownTeacher := "Unknown Teacher"

  /** `enrollment.classes?.name || "Unknown Class"`. */
  function ClassName(e: EnrollmentJoin): (name: string)
    ensures name != ""
    ensures name == UnknownClass || (e.joined.Some? && e.joined.value.name == Some(name))
    ensures e.joined.Some? && e.joined.value.name.Some? && e.joined.value.name.value != ""
      ==> name == e.joined.value.name.value
  {
    Text.OrElse(if e.joined.Some? then e.joined.value.name else None, UnknownClass)
  }

  /** `enrollment.classes?.profiles?.full_name || "Unknown Teacher"`. */
  function Instructor(e: EnrollmentJoin): (name: string)
    ensures name != ""
    ensures name == UnknownTeacher
      || (e.joined.Some? && e.joined.value.teacher.Some? && e.joined.value.teacher.value.fullName == Some(name))
    ensures e.joined.Some? && e.joined.value.teacher.Some? && e.joined.value.teacher.value.fullName.Some?
      && e.joined.value.teacher.value.fullName.value != ""
      ==> name == e.joined.value.teacher.value.fullName.value
  {
    var t := if e.joined.Some? && e.joined.value.teacher.Some? then e.joined.value.teacher.value.fullName else None;
    Text.OrElse(t, UnknownTeacher)
  }

  /** The body of the "My Classes" table: one line per enrollment, or the
    single empty-state line when there are none. */
  function ClassTable(enrollments: Option<seq<EnrollmentJoin>>): (rows: seq<TableRow>)
    ensures enrollments.None? || enrollments.value == [] <==> rows == [EmptyState]
    ensures enrollments.Some? && enrollments.value != [] ==>
      && |rows| == |enrollments.value|
      && forall i :: 0 <= i < |rows| ==>
           rows[i] == ClassLine(ClassName(enrollments.value[i]), Instructor(enrollments.value[i]))
  {
    if enrollments.None? || enrollments.value == [] then [EmptyState]
    else
      var es := enrollments.value;
      var rows := seq(|es|, i requires 0 <= i < |es| => ClassLine(ClassName(es[i]), Instructor(es[i])));
      assert rows[0].ClassLine?;
      rows
  }
}

=== FILE: teacher_dashboard.dfy ===
/** The teacher dashboard around the export: who may see it, the "Sessions"
  column of the class list, and the list update after a class is deleted.
 */
module TeacherDashboard {
  import opened Base
  import opened Routing

  /** A row of `classes` as selected with `attendance_sessions(count)`. The
    nested relation, when present, is a list of aggregate rows whose `count`
    may itself be missing. */
  datatype ClassEntry = ClassEntry(id: string, name: string, inviteCode: string, sessionCounts: Option<seq<Option<nat>>>)

  /** Where the dashboard's loader sends a visitor, or `None` when it renders. */
  function Guard(user: Option<string>, profiles: map<string, Profile>): (r: Option<Route>)
    ensures user.None? ==> r == Some(LoginPage)
    ensures user.Some? ==> (r.None? <==> user.value in profiles && profiles[user.value].role == TeacherRole)
    ensures r.Some? && user.Some? ==> r == Some(StudentHome)
  {
    if user.None? then Some(LoginPage)
    else
      var profile := ProfileOf(profiles, user.value);
      if profile.Some? && profile.value.role == TeacherRole then None else Some(StudentHome)
  }

  /** `cls.attendance_sessions?.[0]?.count || 0`. */
  function SessionsCell(c: ClassEntry): (n: nat)
    ensures c.sessionCounts.None? || c.sessionCounts.value == [] ==> n == 0
    ensures c.sessionCounts.Some? && c.sessionCounts.value != [] && c.sessionCounts.value[0].Some?
      ==> n == c.sessionCounts.value[0].value
    ensures c.sessionCounts.Some? && c.sessionCounts.value != [] && c.sessionCounts.value[0].None? ==> n == 0
  {
    match c.sessionCounts
    case None => 0
    case Some(rows) => if rows != [] && rows[0].Some? then rows[0].value else 0
  }

  /** `classes.filter(c => c.id !== classId)`. */
  function WithoutClass(classes: seq<ClassEntry>, classId: string): (r: seq<ClassEntry>)
    ensures |r| <= |classes|
    ensures forall c :: c in r <==> c in classes && c.id != classId
  {
    if classes == [] then []
    else
      var rest := WithoutClass(classes[1..], classId);
      assert classes == [classes[0]] + classes[1..];
      if classes[0].id == classId then rest else [classes[0]] + rest
  }

  /** How many entries carry the id. */
  function CountId(classes: seq<ClassEntry>, classId: string): (n: nat)
    ensures n <= |classes|
  {
    if classes == [] then 0
    else (if classes[0].id == classId then 1 else 0) + CountId(classes[1..], classId)
  }

  /** The filter drops exactly the entries with that id. */
  lemma {:induction false} WithoutClassLength(classes: seq<ClassEntry>, classId: string)
    ensures |WithoutClass(classes, classId)| == |classes| - CountId(classes, classId)
  {
    if classes != [] {
      WithoutClassLength(classes[1..], classId);
    }
  }

  /** The filter works piecewise, so the surviving entries keep their order. */
  lemma {:induction false} WithoutClassAppend(a: seq<ClassEntry>, b: seq<ClassEntry>, classId: string)
    ensures WithoutClass(a + b, classId) == WithoutClass(a, classId) + WithoutClass(b, classId)
  {
    if a == [] {
      assert a + b == b;
    } else {
      assert (a + b)[1..] == a[1..] + b;
      WithoutClassAppend(a[1..], b, classId);
    }
  }

  /** A list with no entry of that id is left exactly as it was. */
  lemma {:induction false} WithoutAbsentClass(classes: seq<ClassEntry>, classId: string)
    requires forall i :: 0 <= i < |classes| ==> classes[i].id != classId
    ensures WithoutClass(classes, classId) == classes
  {
    if classes != [] {
      WithoutAbsentClass(classes[1..], classId);
    }
  }

  datatype DeleteResult = DeleteResult(classes: seq<ClassEntry>, toast: Option<string>)

  const DeletedMessage := "Class deleted successfully"
  const DeleteFailedMessage := "Failed to delete class"

  /** `handleDeleteClass`: nothing happens unless the user confirms; the
    backend's answer to the delete is `error` (`None` on success). */
  function DeleteClass(classes: seq<ClassEntry>, classId: string, confirmed: bool, error: Option<DbError>): (r: DeleteResult)
    ensures !confirmed ==> r == DeleteResult(classes, None)
    ensures confirmed && error.Some? ==> r == DeleteResult(classes, Some(DeleteFailedMessage))
    ensures confirmed && error.None? ==> r.toast == Some(DeletedMessage)
    ensures confirmed && error.None? ==> forall c :: c in r.classes <==> c in classes && c.id != classId
    ensures confirmed && error.None? ==> r.classes == WithoutClass(classes, classId)
  {
    if !confirmed then DeleteResult(classes, None)
    else if error.Some? then DeleteResult(classes, Some(DeleteFailedMessage))
    else DeleteResult(WithoutClass(classes, classId), Some(DeletedMessage))
  }
}

=== FILE: text.dfy ===
/** String operations the pages perform on user input and scanned text, written
  over `seq<char>`: substring search (`includes`, `split`), the `\D` digit filter,
  upper-casing, `trim`, decimal rendering of numbers and the `||` fallback on
  strings.
 */
module Text {
  import opened Base

  /** `pat` occurs in `s` starting at index `i`. */
  predicate OccursAt(s: string, pat: string, i: nat) {
    i + |pat| <= |s| && s[i..i + |pat|] == pat
  }

  /** `pat` occurs somewhere in `s`. */
  ghost predicate Contains(s: string, pat: string) {
    exists i: nat :: OccursAt(s, pat, i)
  }

  /** `i` is the leftmost occurrence of `pat` in `s`. */
  ghost predicate FirstOccurrence(s: string, pat: string, i: nat) {
    OccursAt(s, pat, i) && forall k: nat :: k < i ==> !OccursAt(s, pat, k)
  }

  /** The leftmost occurrence of `pat` in `s` at or after `from`, if any. */
  function IndexOf(s: string, pat: string, from: nat): (r: Option<nat>)
    ensures r.Some? ==> from <= r.value && OccursAt(s, pat, r.value)
    ensures r.Some? ==> forall k: nat :: from <= k < r.value ==> !OccursAt(s, pat, k)
    ensures r.None? ==> forall k: nat :: from <= k ==> !OccursAt(s, pat, k)
    decreases |s| - from
  {
    if |s| < from + |pat| then None
    else if s[from..from + |pat|] == pat then Some(from)
    else IndexOf(s, pat, from + 1)
  }

  /** JavaScript's `s.includes(pat)`. */
  function Includes(s: string, pat: string): (b: bool)
    ensures b <==> Contains(s, pat)
  {
    var r := IndexOf(s, pat, 0);
    assert r.Some? ==> OccursAt(s, pat, r.value);
    r.Some?
  }

  /** An ASCII decimal digit, the complement of the regular-expression class `\D`. */
  predicate IsDigit(c: char) {
    '0' <= c <= '9'
  }

  predicate AllDigits(s: string) {
    forall i :: 0 <= i < |s| ==> IsDigit(s[i])
  }

  /** `s.replace(/\D/g, "")`: every character that is not an ASCII digit is removed. */
  function KeepDigits(s: string): (r: string)
    ensures AllDigits(r)
    ensures |r| <= |s|
  {
    if s == [] then [] else (if IsDigit(s[0]) then [s[0]] else []) + KeepDigits(s[1..])
  }

  /** The filter keeps every digit, as often as it occurs, and nothing else. */
  lemma {:induction false} KeepDigitsContents(s: string)
    ensures forall c :: multiset(KeepDigits(s))[c] == if IsDigit(c) then multiset(s)[c] else 0
  {
    if s != [] {
      KeepDigitsContents(s[1..]);
      assert s == [s[0]] + s[1..];
    }
  }

  /** The filter works piecewise, so it keeps the digits in their original order. */
  lemma {:induction false} KeepDigitsAppend(a: string, b: string)
    ensures KeepDigits(a + b) == KeepDigits(a) + KeepDigits(b)
  {
    if a == [] {
      assert a + b == b;
    } else {
      assert (a + b)[0] == a[0];
      assert (a + b)[1..] == a[1..] + b;
      KeepDigitsAppend(a[1..], b);
    }
  }

  /** A string that is already all digits passes through unchanged; in particular the filter is idempotent. */
  lemma {:induction false} KeepDigitsOfDigits(s: string)
    requires AllDigits(s)
    ensures KeepDigits(s) == s
  {
    if s != [] {
      KeepDigitsOfDigits(s[1..]);
    }
  }

  /** `toUpperCase` on one character, restricted to the ASCII letters. */
  function UpperChar(c: char): char {
    if 'a' <= c <= 'z' then (c as int - 'a' as int + 'A' as int) as char else c
  }

  /** `s.toUpperCase()` on ASCII text. */
  function ToUpper(s: string): (r: string)
    ensures |r| == |s|
    ensures forall i :: 0 <= i < |r| ==> !('a' <= r[i] <= 'z')
    ensures forall i :: 0 <= i < |r| ==> r[i] == s[i] || ('a' <= s[i] <= 'z' && r[i] as int == s[i] as int - 32)
  {
    seq(|s|, i requires 0 <= i < |s| => UpperChar(s[i]))
  }

  lemma ToUpperIdempotent(s: string)
    ensures ToUpper(ToUpper(s)) == ToUpper(s)
  {
  }

  /** The characters `String.prototype.trim` removes: ECMAScript WhiteSpace and LineTerminator. */
  predicate IsSpace(c: char) {
    || c == '\t' || c == '\n' || c == '\U{B}' || c == '\U{C}' || c == '\r' || c == ' '
    || c == '\U{A0}' || c == '\U{1680}' || ('\U{2000}' <= c <= '\U{200A}')
    || c == '\U{2028}' || c == '\U{2029}' || c == '\U{202F}' || c == '\U{205F}'
    || c == '\U{3000}' || c == '\U{FEFF}'
  }

  predicate AllSpace(s: string) {
    forall i :: 0 <= i < |s| ==> IsSpace(s[i])
  }

  /** Number of leading whitespace characters of `s`. */
  function LeadingSpace(s: string): (n: nat)
    ensures n <= |s|
    ensures AllSpace(s[..n])
    ensures n < |s| ==> !IsSpace(s[n])
  {
    if s == [] || !IsSpace(s[0]) then 0 else 1 + LeadingSpace(s[1..])
  }

  /** Number of trailing whitespace characters of `s`. */
  function TrailingSpace(s: string): (n: nat)
    ensures n <= |s|
    ensures AllSpace(s[|s| - n..])
    ensures n < |s| ==> !IsSpace(s[|s| - n - 1])
  {
    if s == [] || !IsSpace(s[|s| - 1]) then 0 else 1 + TrailingSpace(s[..|s| - 1])
  }

  /** Where `trim` cuts: after the leading whitespace and before the trailing whitespace. */
  function TrimBounds(s: string): (b: (nat, nat))
    ensures b.0 <= b.1 <= |s|
  {
    var i := LeadingSpace(s);
    (i, |s| - TrailingSpace(s[i..]))
  }

  lemma TrimBoundsCorrect(s: string)
    ensures AllSpace(s[..TrimBounds(s).0]) && AllSpace(s[TrimBounds(s).1..])
    ensures TrimBounds(s).0 < TrimBounds(s).1 ==> !IsSpace(s[TrimBounds(s).0]) && !IsSpace(s[TrimBounds(s).1 - 1])
    ensures !AllSpace(s) ==> TrimBounds(s).0 < TrimBounds(s).1
  {
    var i := LeadingSpace(s);
    var rest := s[i..];
    var t := TrailingSpace(rest);
    var j := |s| - t;
    assert TrimBounds(s) == (i, j);
    assert s[j..] == rest[|rest| - t..];
    if i < j {
      assert s[j - 1] == rest[|rest| - t - 1];
    } else {
      assert s[..i] == s;
    }
  }

  /** `s.trim()`: the longest slice of `s` that neither starts nor ends with whitespace. */
  function Trim(s: string): (r: string)
    ensures exists i, j :: 0 <= i <= j <= |s| && r == s[i..j] && AllSpace(s[..i]) && AllSpace(s[j..])
    ensures r != [] ==> !IsSpace(r[0]) && !IsSpace(r[|r| - 1])
    ensures !AllSpace(s) ==> r != []
  {
    var b := TrimBounds(s);
    TrimBoundsCorrect(s);
    var r := s[b.0..b.1];
    assert 0 <= b.0 <= b.1 <= |s| && r == s[b.0..b.1] && AllSpace(s[..b.0]) && AllSpace(s[b.1..]);
    assert r != [] ==> r[0] == s[b.0] && r[|r| - 1] == s[b.1 - 1];
    r
  }

  /** Trimming twice is trimming once. */
  lemma TrimIdempotent(s: string)
    ensures Trim(Trim(s)) == Trim(s)
  {
    var r := Trim(s);
    assert LeadingSpace(r) == 0;
    assert r[0..] == r;
    if r != [] {
      assert TrailingSpace(r) == 0;
    }
  }

  /** The character of a decimal digit. */
  function DigitChar(d: nat): (c: char)
    requires d < 10
    ensures IsDigit(c)
  {
    ('0' as int + d) as char
  }

  /** The number a string of decimal digits denotes. */
  function DecimalValue(s: string): nat
    requires AllDigits(s)
  {
    if s == [] then 0 else 10 * DecimalValue(s[..|s| - 1]) + (s[|s| - 1] as int - '0' as int)
  }

  /** `String(n)` for a non-negative integer: its decimal digits, most
    significant first, with no leading zero. Reading the digits back gives
    the number, so the rendering loses nothing. */
  function NatToDecimal(n: nat): (s: string)
    ensures |s| > 0 && AllDigits(s)
    ensures s[0] == '0' ==> n == 0 && s == "0"
    ensures DecimalValue(s) == n
    decreases n
  {
    if n < 10 then [DigitChar(n)]
    else
      var s := NatToDecimal(n / 10) + [DigitChar(n % 10)];
      assert s[..|s| - 1] == NatToDecimal(n / 10);
      s
  }

  /** JavaScript's `s || fallback` for an optional string: `null`, `undefined` and `""` all give the fallback. */
  function OrElse(s: Option<string>, fallback: string): (r: string)
    ensures r == fallback || (s == Some(r) && r != "")
    ensures (s.Some? && s.value != "") ==> r == s.value
  {
    if s.Some? && s.value != "" then s.value else fallback
  }
}
